=== FILE: README.md ===
# Sweat Pets progression model

Sweat Pets is a browser widget. Steps the user enters feed a virtual robot pet. The pet has five stats (health, happiness, energy, strength, agility), a level from 1 to 100 derived from total steps, and five evolution stages. Everything lives in the browser's `localStorage` under three keys: `sweatPetData`, `sweatActivityData` and `sweatAchievements`. This project models that progression engine and the store bookkeeping around it in Dafny, and proves its properties.

Modules, following the program's structure:

- `Wrappers`: `Option`, `Result` and the kinds of fault.
  - `NullAccess`: a property read on JSON `null`, which throws in JavaScript.
  - `Malformed`: a document that does not parse.
  - `OutOfModel`: a value shape this model does not carry, such as a string where a number is expected.
- `Json`: the values `JSON.parse` yields. It defines JavaScript truthiness, the property read `doc[key]` (a missing key is `None`, i.e. `undefined`) and the `||` default.
- `IntMath`: the exact integer square root. It is used to state the level threshold without floating point.
- `Leveling`: `getStepsForLevel`, and the top-down scan `checkLevelUp` performs.
  - The threshold `floor(1000 * L^1.5)` equals `isqrt(10^6 * L^3)`. The model states it that way.
- `Pets`: the pet record.
  - Operations: the bounded stat increases, the five capped per-intake deltas, `addSteps`, `checkLevelUp`, `resetStepsToday` and `getEvolutionStage`.
- `Persistence`: the store. `saveData` writes the pet record under `sweatPetData`. `loadData` reads it back with per-field `||` defaults and the day rollover. Each `Pet` operation that saves is paired with its store write.
- `Controller`: the bookkeeping in the page controller.
  - Start-up seeding of the sample week.
  - The weekday-to-slot mapping and the weekly activity update.
  - The achievement catalog and `checkNewAchievements`.
  - Export, import and reset-all.
  - The level-progress arithmetic.
  - The add-steps click handler and the care buttons.
- `Format`: `formatNumber`, i.e. `toString` followed by the thousands-separator regular expression `\B(?=(\d{3})+(?!\d))`.

Inputs that the browser supplies become parameters:

- The current time is an opaque timestamp string `now`.
- The calendar date of a stored `lastSaved` comes from a `calendar` function. A record without `lastSaved` has no valid date, as `new Date(undefined)` is invalid (`LastSavedDate`).
- Today's date is a `Date(year, month, day)`.
- The weekday is a number 0..6 (0 = Sunday).
- An imported file is a parse result: `None` when `JSON.parse` throws.

Stored documents are modelled as parsed JSON. `JSON.stringify` followed by `JSON.parse` is taken to be the identity on them.

Behaviours of the code worth knowing:

- The reset-all button removes only `sweatPetData` and `sweatActivityData`. Achievements survive (`ResetAll`).
- The achievement catalog has the eight step and level entries and nothing else (`Catalog`).
- Start-up stores a sample week `[2000, 4500, 3200, 7800, 5400, 9200, 8100]` when none is present (`SeedActivity`).
- Because of the `||` defaults in `loadData`, a stat, level or counter saved as 0 reloads as its default (`ZeroHealthReloadsAsDefault`).
- `checkNewAchievements` reads `previouslyUnlocked` from the record as it was before the call. The record it writes marks every achievement met this time and not already unlocked as `true`, and keeps every other entry, so an already unlocked entry keeps its stored truthy value.

## Model

| member | source | states |
|---|---|---|
| `IntMath.ISqrt` | public/js/pet.js:157 | the result is the floor square root: its square is at most n and the next square exceeds n |
| `IntMath.ISqrtUnique` | public/js/pet.js:157 | any r with r*r <= n < (r+1)*(r+1) is the floor square root, so the threshold has exactly one value |
| `IntMath.ISqrtMonotone` | public/js/pet.js:157 | the floor square root is monotone, which is what makes thresholds grow with the level |
| `Leveling.StepsForLevel` | public/js/pet.js:148-158 | 0 for levels up to 1, unreachable (Infinity) above 100, and otherwise the floor square root of 10^6 * L^3, i.e. floor(1000 * L^1.5) |
| `Leveling.ThresholdOfLevel2` | public/js/pet.js:153 | level 2 needs 2,828 steps, as the comment in `getStepsForLevel` says |
| `Leveling.ThresholdOfLevel10` | public/js/pet.js:154 | level 10 needs 31,622 steps, as the comment in `getStepsForLevel` says |
| `Leveling.ThresholdOfLevel50` | public/js/pet.js:155 | level 50 needs 353,553 steps, as the comment in `getStepsForLevel` says |
| `Leveling.ThresholdOfLevel100` | public/js/pet.js:156 | level 100 needs 1,000,000 steps, as the comment in `getStepsForLevel` says |
| `Leveling.ThresholdOfLevel3` | public/js/pet.js:157 | level 3 needs 5,196 steps |
| `Leveling.ThresholdPositive` | public/js/pet.js:148-158 | every level from 2 to 100 needs a positive number of steps |
| `Leveling.RootStrictStep` | public/js/pet.js:157 | from level 2 on, the next level's threshold is strictly larger |
| `Leveling.StepsStrictlyIncreasing` | public/js/pet.js:148-158 | the threshold is strictly increasing on levels 1..100 (proved by induction over the gap) |
| `Leveling.ReachesDownward` | public/js/pet.js:168-173 | a total that reaches a level reaches every lower level, so the scan's first hit is the highest level reached |
| `Leveling.ReachesLevelOne` | public/js/pet.js:149 | level 1 is reached exactly by non-negative totals |
| `Leveling.ScanDown` | public/js/pet.js:165-173 | the downward scan from level `from` returns a level in 1..100 that is reached, and no level between it and `from` is reached (1 when none is) |
| `Leveling.LevelFor` | public/js/pet.js:165-173 | the scan from level 100 down yields a level in 1..100 that a non-negative total reaches, with no higher level up to 100 reached |
| `Leveling.LevelForIsHighest` | public/js/pet.js:165-173 | for a non-negative total the scan's result is the highest level in 1..100 reached, and the only such level |
| `Leveling.LevelForNegative` | public/js/pet.js:165 | a negative total falls through the scan and keeps the initial level 1 |
| `Leveling.LevelForMonotone` | public/js/pet.js:165-173 | more total steps never give a lower computed level |
| `Leveling.LevelForBracket` | public/js/pet.js:168-173 | a level reached whose successor is not reached is the computed level |
| `Leveling.LevelForThreshold` | public/js/pet.js:168-173 | exactly a level's threshold computes that level |
| `Leveling.LevelForBelowThreshold` | public/js/pet.js:168-173 | one step short of a level's threshold computes the level below |
| `Pets.With` | public/js/pet.js:107-142 | replacing one stat sets it and leaves the other four unchanged |
| `Pets.IncreaseStat` | public/js/pet.js:107-142 | the stat becomes old + amount when that is at most 100 and 100 otherwise; it never exceeds 100; a non-negative amount never lowers a stat at or below 100; other stats and the counters are unchanged |
| `Pets.IncreaseStatKeepsValid` | public/js/pet.js:107-142 | a non-negative increase keeps every stat in 0..100 |
| `Pets.Delta` | public/js/pet.js:77-81 | the per-intake delta never exceeds its cap (20, 15, 12, 10, 10) and is positive for positive steps |
| `Pets.CheckLevelUp` | public/js/pet.js:163-180 | the level never decreases; afterwards it is at least the computed level, and it is either unchanged or the computed level; nothing else changes |
| `Pets.CheckLevelUpIdempotent` | public/js/pet.js:163-180 | rechecking a rechecked pet changes nothing |
| `Pets.Feed` | public/js/pet.js:77-87 | each stat becomes min(100, stat + its delta for the intake) |
| `Pets.FeedIsFiveIncreases` | public/js/pet.js:83-87 | the intake's stat update is the five increase calls in sequence |
| `Pets.AddSteps` | public/js/pet.js:69-94 | non-positive steps change nothing; otherwise both counters grow by exactly the steps, each stat gets its capped delta, and the level is rechecked against the new total without ever dropping |
| `Pets.AddStepsKeepsValid` | public/js/pet.js:69-94 | an intake keeps every stat in 0..100 |
| `Pets.AddStepsKeepsConsistent` | public/js/pet.js:69-94 | for a pet whose level is the level its total computes, an intake keeps the level equal to the level the new total computes |
| `Pets.IntakesMonotone` | public/js/pet.js:69-94 | across any sequence of intakes level and total steps never decrease |
| `Pets.FreshPetThousandSteps` | public/js/pet.js:69-94 | a new pet given 1,000 steps has stats 60/55/53/11/11, level 1 and 1,000 steps on both counters |
| `Pets.LevelUpAt3000` | public/js/pet.js:89-90 | a level-1 pet at 900 steps given 2,100 more reaches level 2 inside the intake |
| `Pets.ResetStepsToday` | public/js/pet.js:99-102 | today's steps become 0 and nothing else changes |
| `Pets.EvolutionStage` | public/js/pet.js:380-386 | the stage is in 1..5; for levels 1..100 it is the band of 20 levels containing the level; lower levels give 1 and higher give 5 |
| `Pets.EvolutionStageMonotone` | public/js/pet.js:380-386 | a higher level never has a lower stage |
| `Persistence.Save` | public/js/pet.js:221-235 | the pet record under `sweatPetData` is replaced by the encoded pet and every other key is unchanged |
| `Persistence.SaveOverwrites` | public/js/pet.js:234 | a second save wipes out the first |
| `Persistence.EncodedFields` | public/js/pet.js:222-232 | the saved record carries each of the eight pet fields and the save time under its own name |
| `Persistence.StatField` | public/js/pet.js:254-258 | a missing or falsy stat reads as its default, a truthy number reads as itself, and any other truthy value is out of the model |
| `Persistence.CountField` | public/js/pet.js:259-263 | a missing or falsy counter reads as its default, a truthy whole number reads as itself, and anything else is out of the model |
| `Persistence.IsNewDay` | public/js/pet.js:247-251 | it is a new day exactly when the saved calendar date (year, month, day) is not today's |
| `Persistence.LastSavedDate` | public/js/pet.js:247 | a record without `lastSaved` has no valid date; otherwise it is the calendar's reading of the field |
| `Persistence.DecodePet` | public/js/pet.js:254-263 | the record decodes exactly when every field-or-default read is a number (a whole one for the counters); each restored field is that read, today's steps are the stored `stepsToday`, or 0 when it is missing or falsy, on the same day and 0 on a new day; no stat or level is zero |
| `Persistence.LoadData` | public/js/pet.js:240-272 | no record gives the initial pet and no write; a null record is a fault; otherwise the load succeeds exactly when the record decodes, the pet is the decoded record (with the rollover decided by the saved calendar date), and it is re-saved; on a new day, and always for a record without `lastSaved`, today's steps are 0 |
| `Persistence.ReadsAsMeaning` | public/js/pet.js:254-263 | a field-or-default read gives the default for a missing or falsy field and the stored non-zero number otherwise |
| `Persistence.LoadReadsRecord` | public/js/pet.js:247-263 | every field of a loaded pet is the record's field-or-default read; the stored `stepsToday` is kept exactly when the record was saved today and is 0 otherwise |
| `Persistence.MissingFieldLoadsDefault` | public/js/pet.js:258 | a legacy record without `agility` loads with agility 10 |
| `Persistence.DecodeEncode` | public/js/pet.js:221-263 | decoding a saved pet gives the same pet, with today's steps zeroed on a new day |
| `Persistence.SaveLoadSameDay` | public/js/pet.js:240-272 | saving then loading on the same day restores the pet exactly |
| `Persistence.SaveLoadNewDay` | public/js/pet.js:247-263 | saving then loading on a later day restores the pet with today's steps reset |
| `Persistence.RolloverIdempotent` | public/js/pet.js:262-266 | a second load on the same day after a load's own re-save gives the same pet: the rollover happens once |
| `Persistence.EmptyRecordLoadsDefaults` | public/js/pet.js:247-263 | an empty stored record loads as the initial pet, whatever the calendar, since it has no `lastSaved` |
| `Persistence.ZeroHealthReloadsAsDefault` | public/js/pet.js:254 | a health of 0 saved reloads as 50 |
| `Persistence.IncreaseStatSaved` | public/js/pet.js:107-142 | every increase is a save point: whenever the new pet is reloadable, the stored record decodes to the pet in memory; a valid, reloadable pet given a non-negative amount stays reloadable and in sync |
| `Persistence.AddStepsSaved` | public/js/pet.js:69-94 | non-positive steps neither change the pet nor save; otherwise the intake is applied and the final pet saved |
| `Persistence.IncreaseAllSaved` | public/js/pet.js:83-87 | the five increases with their saves leave the fed pet saved |
| `Persistence.AddStepsKeepsReloadable` | public/js/pet.js:69-94 | after a positive intake every stat is positive, so the pet reloads as saved |
| `Persistence.AddStepsSavedInSync` | public/js/pet.js:69-94 | after a positive intake the stored record decodes to the pet in memory |
| `Persistence.ResetStepsTodaySaved` | public/js/pet.js:99-102 | the reset is a save point: for a reloadable pet the stored record decodes to the reset pet in memory |
| `Controller.DayIndex` | public/js/app.js:333-337 | Sunday (0) maps to slot 6 and day d to d-1; the slot is in 0..6 and is (d+6) mod 7 |
| `Controller.DayIndexBijective` | public/js/app.js:333-337 | the weekday mapping is a bijection between 0..6 and 0..6, inverted by (slot+1) mod 7 |
| `Controller.Numbers` | public/js/app.js:331 | a stored week reads as numbers exactly when every entry is a number, pointwise |
| `Controller.BumpWeek` | public/js/app.js:340-347 | the update succeeds exactly when the week is an array holding today's slot, today's entry is a number or `null`, and every other entry is a number; the week written back is all numbers; any other week is out of the model; the activity record keeps every field except `weeklySteps` |
| `Controller.BumpWeekAdds` | public/js/app.js:331-343 | on a stored numeric week the update succeeds and adds the steps to the one slot |
| `Controller.NullTodayBecomesSteps` | public/js/app.js:340-343 | a `null` in today's slot becomes exactly the intake, as `null + steps` is `steps` |
| `Controller.UpdateWeeklyActivity` | public/js/app.js:328-344 | a null record is a fault; a primitive record is left as it was; an object record succeeds exactly when its week can take today's update (today's entry a number or `null`, every other entry a number), and is out of the model otherwise; on success the activity key is written with a week of numbers; no other key changes |
| `Controller.WeeklyUpdateAddsToToday` | public/js/app.js:328-344 | today's slot grows by exactly the new steps |
| `Controller.WeeklyUpdateTouchesOneSlot` | public/js/app.js:340-344 | a seven-day week keeps its length and only today's slot changes |
| `Controller.SeedActivity` | public/js/app.js:22-29 | a null record is a fault; a truthy week is left alone; an object record without one gets the sample week; no other key changes |
| `Controller.SeedActivityIdempotent` | public/js/app.js:22-29 | seeding twice is seeding once |
| `Controller.RequirementsMonotone` | public/js/app.js:359-366 | a requirement met stays met when steps and level grow |
| `Controller.NewlyMet` | public/js/app.js:372-373 | an achievement is new exactly when it is in the catalog, its requirement holds and it was not previously unlocked; the new ones keep the catalog's order, and none repeats when the catalog has no repeats |
| `Controller.MarkUnlocked` | public/js/app.js:378 | the newly met ids are set to true and every other entry is kept |
| `Controller.Names` | public/js/app.js:381-383 | one announcement per new achievement, carrying its name, in the same order |
| `Controller.UnlockRecord` | public/js/app.js:372-393 | an id is unlocked afterwards iff it was unlocked before or is earned now; entries already unlocked or not earned are unchanged |
| `Controller.NothingNewAfterUnlock` | public/js/app.js:372-393 | after an update nothing is newly met for the same pet |
| `Controller.CheckAchievements` | public/js/app.js:353-393 | a null record is a fault; an object record is replaced by its unlock update; a primitive record is left alone; the names announced are exactly those of the newly met entries, in catalog order |
| `Controller.AnnouncesIffNewlyMet` | public/js/app.js:372-390 | something is announced iff some met achievement was not yet unlocked; every name announced belongs to a met achievement, and every newly met achievement is announced |
| `Controller.CatalogNamesDistinct` | public/js/app.js:358-367 | the catalog holds no entry twice and no two entries share a name |
| `Controller.AnnouncesEachOnce` | public/js/app.js:353-390 | on the page's catalog no name is announced twice in one check |
| `Controller.DistinctNames` | public/js/app.js:381-383 | distinct entries of a catalog whose names identify its entries are announced under distinct names |
| `Controller.CheckAchievementsIdempotent` | public/js/app.js:353-393 | a second check with the same pet announces nothing and writes the same record |
| `Controller.UnlocksPersist` | public/js/app.js:373-378 | an unlocked achievement stays unlocked |
| `Controller.ExportAll` | public/js/app.js:462-472 | the export holds each key's value, or null when it is absent, under its section name, plus the export date |
| `Controller.ImportSection` | public/js/app.js:500-510 | after importing one section its key holds the section when that is truthy and otherwise keeps its presence and value; no other key changes |
| `Controller.ImportAll` | public/js/app.js:495-516 | an unparsable file and a null document are faults; otherwise each key is written exactly when its section is truthy and no other key changes |
| `Controller.Overlay` | public/js/app.js:500-510 | the keys afterwards are the target's plus those of the three the source holds |
| `Controller.ExportImportRoundTrip` | public/js/app.js:462-510 | for a store whose documents are truthy (what the widget writes), importing its export restores every key it held and leaves the rest of the target alone |
| `Controller.ExportImportIdentity` | public/js/app.js:462-510 | importing a store's own export changes nothing |
| `Controller.ImportKeepsStoredTruthy` | public/js/app.js:500-510 | an import never stores a falsy value under the three keys |
| `Controller.ResetAll` | public/js/app.js:209-210 | the pet and activity keys are gone, and every other key, the achievements included, is unchanged |
| `Controller.ResetAllIdempotent` | public/js/app.js:209-210 | resetting twice is resetting once |
| `Controller.ResetAllThenLoad` | public/js/app.js:209-211 | after a reset the pet loads as new |
| `Controller.ResetThenReimport` | public/js/app.js:209-210 | for a store whose documents are truthy (what the widget writes), importing an export taken before a reset restores the store exactly |
| `Controller.LevelProgress` | public/js/app.js:104-111 | no progress above level 100; the progress is total minus the current threshold; below level 100 the gap is the next threshold minus the current one, and it is infinite exactly at level 100 |
| `Controller.Percent` | public/js/app.js:112 | the width times a finite gap is 100 times the progress; an infinite gap gives 0; a zero gap gives no finite width |
| `Controller.ProgressInRange` | public/js/app.js:104-112 | for a consistent pet, progress is non-negative and below the gap to the next level, and the percentage is in [0, 100) |
| `Controller.Recheck` | public/js/app.js:175-180 | the level is rechecked and the celebration fires exactly when it rose above the recorded level |
| `Controller.RecheckOwnLevel` | public/js/app.js:175-177 | rechecking a pet already levelled against its own level celebrates nothing and changes nothing |
| `Controller.FinishClick` | public/js/app.js:182-186 | the weekly update and the achievement check pass the pet and the celebration through and cannot fail on an empty store; a fault in the weekly update, such as a week that is not an array or has a `null` outside today's slot, ends the click before the achievement check |
| `Controller.NullEntryStopsClick` | public/js/app.js:340-347 | a week with `null` in a slot other than today's ends the click with a fault before the achievement check |
| `Controller.NullTodayClickContinues` | public/js/app.js:182-186 | with `null` in today's slot the click completes, the slot holds the intake and the achievement check runs |
| `Controller.OnAddSteps` | public/js/app.js:166-187 | non-positive steps do nothing; otherwise the pet is the intake's result |
| `Controller.OnAddStepsNeverCelebrates` | public/js/app.js:171-180 | as written, the click handler never plays the level-up celebration |
| `Controller.LevelUpGoesUncelebrated` | public/js/app.js:171-180 | 2,100 steps on a level-1 pet at 900 steps reach level 2 without a celebration |
| `Controller.OnAddStepsCorrected` | public/js/app.js:166-187 | with the level recorded before the intake, the celebration fires exactly when the level rose |
| `Controller.CorrectedCelebratesLevelUp` | public/js/app.js:171-180 | the corrected handler celebrates the same level-up |
| `Controller.Care` | public/js/app.js:217-221 | a care button raises its stat by 10 up to 100, leaves the other stats and the counters alone, and saves |
| `Format.Digits` | public/js/app.js:529 | the decimal digits have no leading zero and read back as the number |
| `Format.StripCommas` | public/js/app.js:529 | the stripped string has no commas and is no longer than the input |
| `Format.InsertStrips` | public/js/app.js:529 | removing the inserted commas gives back the digits |
| `Format.InsertLength` | public/js/app.js:529 | the separators add one character per full group of three after the first digit |
| `Format.InsertSpacing` | public/js/app.js:529 | after the first digit, a comma stands exactly at each multiple of four characters from the end |
| `Format.Group` | public/js/app.js:529 | removing commas gives the digits back; one comma per full group after the first; commas exactly at positive multiples of four from the end, so every group after the first has three digits and the first has one to three |
| `Format.FormatNumber` | public/js/app.js:528-530 | a minus sign exactly for negatives, then the grouped digits of the magnitude |
| `Format.FormatRoundTrip` | public/js/app.js:528-530 | parsing a formatted integer back gives the integer |

## Left out

- Canvas drawing, sprite loading and the animation loop in `public/js/pet.js`: rendering only.
- The DOM, including:
  - stat bars;
  - the achievement grid;
  - the in-pet level-up message that `checkLevelUp` appends;
  - notifications, confetti, sound playback and the `setTimeout` staggering in `public/js/app.js`.
- `Math.random` colours and positions, which are nondeterministic.
- The bar-chart scaling in `initializeCharts`: presentation.
- `FileReader`, the download anchor, `location.reload`, `confirm` and `alert`.
  - Import and export are pure functions on the store.
  - A file that does not parse is `Err(Malformed)`. The source catches that error and leaves the store as it was.
- Real `Date` and timezone semantics, replaced as follows:
  - the current time is an opaque `now` string;
  - the calendar date of `lastSaved` comes from a parameter function;
  - the weekday is a parameter.
- IEEE floating point:
  - stats and deltas are exact `real` values;
  - the `Math.pow` threshold is the exact integer square root.
- The step counters are unbounded integers. In the source they are doubles and the entry goes through `parseInt`, so above 2^53 the source's `totalSteps + steps` rounds while the model's sum stays exact.
- `localStorage` quota or access failures.
- JSON text.
  - Stored values are parsed JSON, and `JSON.stringify` then `JSON.parse` is taken as the identity.
  - `NaN`, `Infinity` and `undefined` fields, which JSON cannot carry, are not modelled.
- Value shapes the numeric model cannot carry fail with `OutOfModel` instead of computing JavaScript's coercions. These are:
  - string or boolean stat fields;
  - string or boolean counters (`level`, `totalSteps`, `stepsToday`);
  - fractional counters;
  - a week with a string, boolean, array or object entry. Today's entry would give a string concatenation or `NaN`, and in other slots the chart would draw `NaN` bars;
  - a week with `null` in a slot other than today's. The chart redraw throws on `formatNumber(null)`, so the click handler stops before the achievement check. A `null` in today's slot is modelled: `null + n` is `n` (`NullTodayBecomesSteps`);
  - week arrays too short for today's slot, which would store `NaN`;
  - a truthy week that is not an array. The write to it is lost or lands on an object, and the chart redraw that follows throws, so the click handler stops before the achievement check.
- The server in `server.js`: a static file server.
- `Format.FormatNumber`: integers only. It does not model `toString`'s exponent notation for very large magnitudes, or fractional parts.
- `Controller.FinishClick`: does not state the store it leaves, beyond the weekly update and the achievement check being applied in turn. Those are stated by `UpdateWeeklyActivity` and `CheckAchievements`.
- `Controller.OnAddSteps`: states the pet and the empty-store success but not the resulting store. That store is `AddStepsSaved`'s store with the weekly and achievement updates applied.
- `Controller.ExportImportRoundTrip`: stated for stores whose three documents are truthy, which is all the widget itself writes. A falsy stored document, such as `sweatPetData = 0`, is exported but skipped by the import's truthiness tests, so it is not restored.
- `Controller.ResetThenReimport`: stated for stores of truthy documents, for the same reason as `ExportImportRoundTrip`.
- `Pets.Delta`: states the caps and positivity, not the exact rate per step (0.01, 0.005, 0.003, 0.001, 0.001). `Pets.FreshPetThousandSteps` pins the rates at one intake.
- `Controller.CheckNewAchievements`: the page's catalog instance of `CheckAchievements`. It has no contract of its own; the contract is stated once, over any catalog.

## Findings

| source | as written | input that shows it | evidently intended | confidence | as-written member | corrected member |
|---|---|---|---|---|---|---|
| public/js/app.js:171-180 | the handler records `oldLevel` after `pet.addSteps`, which already ran `checkLevelUp`; the second check finds nothing new, so the level-up sound and confetti never play | a level-1 pet with 900 total steps given 2,100 steps reaches level 2 and is not celebrated | record the level before the intake, so a level-up is celebrated | not executed | `Controller.LevelUpGoesUncelebrated` | `Controller.OnAddStepsCorrected` |

=== FILE: controller.dfy ===
/**
 * The bookkeeping of the page controller around the pet: the weekly
 * activity slots, the achievement catalog and its unlock record, export
 * and import of the three stored documents, reset-all, the level
 * progress figures and the add-steps click handler.
 */
module Controller {
  import opened Wrappers
  import opened Json
  import opened Leveling
  import opened Pets
  import opened Persistence

  // ---------------------------------------------------------------- weekly activity

  /** Slot of a weekday: `getDay()` counts from Sunday = 0, the chart from Monday = 0. */
  function DayIndex(weekday: int): (slot: int)
    requires 0 <= weekday <= 6
    ensures 0 <= slot <= 6
    ensures slot == (weekday + 6) % 7
  {
    if weekday == 0 then 6 else weekday - 1
  }

  /** The weekday shown in a slot. */
  function SlotWeekday(slot: int): (weekday: int)
    requires 0 <= slot <= 6
    ensures 0 <= weekday <= 6
  {
    (slot + 1) % 7
  }

  /** Every weekday gets its own slot: the mapping is a bijection with inverse SlotWeekday. */
  lemma DayIndexBijective(weekday: int, slot: int)
    requires 0 <= weekday <= 6 && 0 <= slot <= 6
    ensures DayIndex(weekday) == slot <==> SlotWeekday(slot) == weekday
  {
  }

  /** The week used when nothing is stored. */
  const ZeroWeek: Json := JArr([JNum(0.0), JNum(0.0), JNum(0.0), JNum(0.0), JNum(0.0), JNum(0.0), JNum(0.0)])

  /** A JSON array of numbers, read as its numbers. */
  function Numbers(items: seq<Json>): (r: Option<seq<real>>)
    ensures r.Some? <==> forall i :: 0 <= i < |items| ==> items[i].JNum?
    ensures r.Some? ==> |r.value| == |items| && forall i :: 0 <= i < |items| ==> r.value[i] == items[i].n
  {
    if forall i :: 0 <= i < |items| ==> items[i].JNum? then
      Some(seq(|items|, i requires 0 <= i < |items| && items[i].JNum? => items[i].n))
    else None
  }

  /** The stored activity document, `{}` when the key is absent. */
  function ActivityDoc(store: Store): Json {
    if ActivityKey in store then store[ActivityKey] else JObj(map[])
  }

  /** The week an activity object holds, seven zeros when it has none. */
  function WeekOf(doc: Json): Json {
    OrElse(Prop(doc, "weeklySteps"), ZeroWeek)
  }

  /** The week of an activity object as numbers, when every entry is one. */
  function WeekNumbers(doc: Json): Option<seq<real>> {
    if WeekOf(doc).JArr? then Numbers(WeekOf(doc).items) else None
  }

  /** The weekly step counts as `updateWeeklyActivity` reads them, when they are all numbers. */
  function StoredWeek(store: Store): Option<seq<real>> {
    if ActivityDoc(store).JObj? then WeekNumbers(ActivityDoc(store)) else None
  }

  /** An array holding exactly the numbers `xs` reads as `xs`. */
  lemma NumbersOf(items: seq<Json>, xs: seq<real>)
    requires |items| == |xs|
    requires forall i :: 0 <= i < |items| ==> items[i] == JNum(xs[i])
    ensures Numbers(items) == Some(xs)
  {
    assert Numbers(items).Some?;
    var ys := Numbers(items).value;
    assert |ys| == |xs| && forall i :: 0 <= i < |ys| ==> ys[i] == xs[i];
    assert ys == xs;
  }

  /** Writing a number into a slot of an all-number array writes it into the read numbers. */
  lemma NumbersUpdate(items: seq<Json>, slot: int, v: real)
    requires 0 <= slot < |items|
    requires Numbers(items).Some?
    ensures Numbers(items[slot := JNum(v)]) == Some(Numbers(items).value[slot := v])
  {
    NumbersOf(items[slot := JNum(v)], Numbers(items).value[slot := v]);
  }

  /**
   * A week `weeklySteps[slot] += steps` can update within the model:
   * today's entry is a number or `null` (which `+` reads as 0), and every
   * other entry is a number.
   */
  predicate Bumpable(items: seq<Json>, slot: int) {
    && 0 <= slot < |items|
    && (items[slot].JNum? || items[slot].JNull?)
    && forall i :: 0 <= i < |items| && i != slot ==> items[i].JNum?
  }

  /**
   * Add `steps` to entry `slot` of the object's week and put the week
   * back under `weeklySteps`. A `null` in today's slot becomes `steps`,
   * since `null + steps` is `steps`. Anything else the week can hold is
   * out of the model:
   * - a missing slot or a string entry today would make the sum NaN or a
   *   string;
   * - a truthy week that is not an array, or a `null` in any other slot,
   *   makes the chart redraw that follows the write throw, because it
   *   iterates the week and formats every entry. That ends the click
   *   handler before the achievement check.
   */
  function BumpWeek(doc: Json, slot: int, steps: int): (r: Result<Json>)
    requires doc.JObj? && 0 <= slot
    ensures r.Ok? <==> WeekOf(doc).JArr? && Bumpable(WeekOf(doc).items, slot)
    ensures r.Err? ==> r == Err(OutOfModel)
    ensures !WeekOf(doc).JArr? ==> r == Err(OutOfModel)
    ensures r.Ok? ==> WeekNumbers(r.value).Some? && |WeekNumbers(r.value).value| == |WeekOf(doc).items|
    ensures r.Ok? ==> r.value.JObj? && r.value.fields.Keys == doc.fields.Keys + {"weeklySteps"}
    ensures r.Ok? ==> forall k :: k in doc.fields && k != "weeklySteps" ==> r.value.fields[k] == doc.fields[k]
  {
    var week := WeekOf(doc);
    if week.JArr? && Bumpable(week.items, slot) then
      var before := if week.items[slot].JNull? then 0.0 else week.items[slot].n;
      var items := week.items[slot := JNum(before + steps as real)];
      var r := JObj(doc.fields["weeklySteps" := JArr(items)]);
      assert WeekOf(r) == JArr(items);
      assert forall i :: 0 <= i < |items| ==> items[i].JNum?;
      Ok(r)
    else
      Err(OutOfModel)
  }

  /** A `null` in today's slot counts as no steps yet: the slot becomes the intake. */
  lemma NullTodayBecomesSteps(doc: Json, slot: int, steps: int)
    requires doc.JObj? && 0 <= slot
    requires WeekOf(doc).JArr? && Bumpable(WeekOf(doc).items, slot) && WeekOf(doc).items[slot] == JNull
    ensures BumpWeek(doc, slot, steps).Ok?
    ensures WeekNumbers(BumpWeek(doc, slot, steps).value).value[slot] == steps as real
  {
    var items := WeekOf(doc).items[slot := JNum(steps as real)];
    assert WeekOf(BumpWeek(doc, slot, steps).value) == JArr(items);
  }

  /** On a week of numbers, BumpWeek adds `steps` to entry `slot` and to nothing else. */
  lemma BumpWeekAdds(doc: Json, slot: int, steps: int)
    requires doc.JObj? && 0 <= slot
    requires WeekNumbers(doc).Some? && slot < |WeekNumbers(doc).value|
    ensures BumpWeek(doc, slot, steps).Ok?
    ensures var week := WeekNumbers(doc).value;
      WeekNumbers(BumpWeek(doc, slot, steps).value) == Some(week[slot := week[slot] + steps as real])
  {
    var items := WeekOf(doc).items;
    var week := WeekNumbers(doc).value;
    var v := week[slot] + steps as real;
    var bumped := JObj(doc.fields["weeklySteps" := JArr(items[slot := JNum(v)])]);
    assert BumpWeek(doc, slot, steps) == Ok(bumped);
    assert WeekOf(bumped) == JArr(items[slot := JNum(v)]);
    NumbersUpdate(items, slot, v);
  }

  /**
   * `updateWeeklyActivity`: add `newSteps` to today's slot of the stored
   * week (seven zeros when there is none) and write the document back.
   * Reading a property of a stored `null` throws; on any other
   * non-object document the property write is lost and the store keeps
   * its value.
   */
  function UpdateWeeklyActivity(store: Store, newSteps: int, weekday: int): (r: Result<Store>)
    requires 0 <= weekday <= 6
    ensures ActivityDoc(store) == JNull <==> r == Err(NullAccess)
    ensures r.Ok? && !ActivityDoc(store).JObj? ==> r.value == store
    ensures r.Ok? && ActivityDoc(store).JObj? ==> ActivityKey in r.value
    ensures ActivityDoc(store).JObj? && !WeekOf(ActivityDoc(store)).JArr? ==> r == Err(OutOfModel)
    ensures ActivityDoc(store).JObj? ==>
      (r.Ok? <==> WeekOf(ActivityDoc(store)).JArr? && Bumpable(WeekOf(ActivityDoc(store)).items, DayIndex(weekday)))
    ensures ActivityDoc(store).JObj? && r.Ok? ==> StoredWeek(r.value).Some?
    ensures r.Ok? ==> r.value - {ActivityKey} == store - {ActivityKey}
  {
    var doc := ActivityDoc(store);
    if doc.JNull? then Err(NullAccess)
    else if !doc.JObj? then Ok(store)
    else
      var doc' :- BumpWeek(doc, DayIndex(weekday), newSteps);
      Ok(store[ActivityKey := doc'])
  }

  /** On a stored week of numbers, the update adds `newSteps` to today's slot and to nothing else. */
  lemma WeeklyUpdateAddsToToday(store: Store, newSteps: int, weekday: int)
    requires 0 <= weekday <= 6
    requires StoredWeek(store).Some? && DayIndex(weekday) < |StoredWeek(store).value|
    ensures UpdateWeeklyActivity(store, newSteps, weekday).Ok?
    ensures var week := StoredWeek(store).value;
      var slot := DayIndex(weekday);
      StoredWeek(UpdateWeeklyActivity(store, newSteps, weekday).value) == Some(week[slot := week[slot] + newSteps as real])
  {
    BumpWeekAdds(ActivityDoc(store), DayIndex(weekday), newSteps);
  }

  /** A week of seven numbers keeps its length, and only today's slot changes, by exactly `newSteps`. */
  lemma WeeklyUpdateTouchesOneSlot(store: Store, newSteps: int, weekday: int, other: int)
    requires 0 <= weekday <= 6 && 0 <= other <= 6
    requires StoredWeek(store).Some? && |StoredWeek(store).value| == 7
    ensures UpdateWeeklyActivity(store, newSteps, weekday).Ok?
    ensures var after := StoredWeek(UpdateWeeklyActivity(store, newSteps, weekday).value);
      && after.Some? && |after.value| == 7
      && after.value[other] == StoredWeek(store).value[other] + (if other == DayIndex(weekday) then newSteps as real else 0.0)
  {
    WeeklyUpdateAddsToToday(store, newSteps, weekday);
  }

  /** The sample week the page stores at start-up when none is present. */
  const SampleWeek: Json := JArr([JNum(2000.0), JNum(4500.0), JNum(3200.0), JNum(7800.0), JNum(5400.0), JNum(9200.0), JNum(8100.0)])

  /**
   * The start-up check of the activity document: when `weeklySteps` is
   * missing or falsy, store the sample week. A stored `null` throws.
   */
  function SeedActivity(store: Store): (r: Result<Store>)
    ensures ActivityDoc(store) == JNull <==> r == Err(NullAccess)
    ensures r.Ok? && TruthyField(Prop(ActivityDoc(store), "weeklySteps")) ==> r.value == store
    ensures r.Ok? && ActivityDoc(store).JObj? && !TruthyField(Prop(ActivityDoc(store), "weeklySteps")) ==>
      StoredWeek(r.value) == Some([2000.0, 4500.0, 3200.0, 7800.0, 5400.0, 9200.0, 8100.0])
    ensures r.Ok? ==> r.value - {ActivityKey} == store - {ActivityKey}
  {
    var doc := ActivityDoc(store);
    if doc.JNull? then Err(NullAccess)
    else if TruthyField(Prop(doc, "weeklySteps")) then Ok(store)
    else if doc.JObj? then
      var seeded := JObj(doc.fields["weeklySteps" := SampleWeek]);
      assert WeekOf(seeded) == SampleWeek;
      NumbersOf(SampleWeek.items, [2000.0, 4500.0, 3200.0, 7800.0, 5400.0, 9200.0, 8100.0]);
      Ok(store[ActivityKey := seeded])
    else Ok(store)
  }

  /** Seeding twice is seeding once: a seeded week is kept on the next start-up. */
  lemma SeedActivityIdempotent(store: Store)
    requires SeedActivity(store).Ok?
    ensures SeedActivity(SeedActivity(store).value) == SeedActivity(store)
  {
  }

  // ---------------------------------------------------------------- achievements

  /** What an achievement asks of the pet. */
  datatype Requirement = StepsAtLeast(steps: int) | LevelAtLeast(level: int)

  /** One entry of the fixed catalog. */
  datatype Achievement = Achievement(id: string, name: string, req: Requirement)

  predicate Meets(req: Requirement, p: Pet) {
    match req
    case StepsAtLeast(n) => p.totalSteps >= n
    case LevelAtLeast(l) => p.level >= l
  }

  /** The catalog, in the order notifications are shown. */
  const Catalog: seq<Achievement> := [
    Achievement("steps-1k", "1,000 Steps", StepsAtLeast(1000)),
    Achievement("steps-10k", "10,000 Steps", StepsAtLeast(10000)),
    Achievement("steps-100k", "100,000 Steps", StepsAtLeast(100000)),
    Achievement("level-10", "Level 10", LevelAtLeast(10)),
    Achievement("level-25", "Level 25", LevelAtLeast(25)),
    Achievement("level-50", "Level 50", LevelAtLeast(50)),
    Achievement("level-75", "Level 75", LevelAtLeast(75)),
    Achievement("level-100", "Level 100", LevelAtLeast(100))
  ]

  /** Requirements only get easier to meet as steps and level grow. */
  lemma RequirementsMonotone(req: Requirement, p: Pet, q: Pet)
    requires p.totalSteps <= q.totalSteps && p.level <= q.level
    requires Meets(req, p)
    ensures Meets(req, q)
  {
  }

  /** An id counts as unlocked when its stored flag is truthy. */
  predicate Unlocked(flags: map<string, Json>, id: string) {
    id in flags && Truthy(flags[id])
  }

  /** Some catalog entry with this id has its requirement met. */
  predicate EarnedIn(cat: seq<Achievement>, id: string, p: Pet) {
    exists a :: a in cat && a.id == id && Meets(a.req, p)
  }

  /** Some entry of `s` carries this id. */
  predicate HasId(s: seq<Achievement>, id: string) {
    exists a :: a in s && a.id == id
  }

  /** `xs` is `ys` with some entries dropped and the others kept in their order. */
  predicate Subsequence<T(==)>(xs: seq<T>, ys: seq<T>)
    decreases |ys|
  {
    if |xs| == 0 then true
    else if |ys| == 0 then false
    else if xs[0] == ys[0] then Subsequence(xs[1..], ys[1..])
    else Subsequence(xs, ys[1..])
  }

  /** No entry occurs twice. */
  predicate Distinct<T(==)>(s: seq<T>) {
    forall i, j :: 0 <= i < j < |s| ==> s[i] != s[j]
  }

  /**
   * The entries of `cat`, in order, whose requirement `p` meets and whose
   * id was not unlocked in the record read before the loop.
   */
  function NewlyMet(prev: map<string, Json>, cat: seq<Achievement>, p: Pet): (met: seq<Achievement>)
    ensures forall a :: a in met <==> a in cat && Meets(a.req, p) && !Unlocked(prev, a.id)
    ensures Subsequence(met, cat)
    ensures Distinct(cat) ==> Distinct(met)
    ensures |met| <= |cat|
    decreases |cat|
  {
    if |cat| == 0 then []
    else
      var a := cat[0];
      assert forall b :: b in cat <==> b == a || b in cat[1..];
      var rest := NewlyMet(prev, cat[1..], p);
      if Meets(a.req, p) && !Unlocked(prev, a.id) then
        var met := [a] + rest;
        assert met[1..] == rest;
        assert Distinct(cat) ==> Distinct(met) by {
          if Distinct(cat) {
            assert Distinct(cat[1..]) by {
              forall i, j | 0 <= i < j < |cat[1..]| ensures cat[1..][i] != cat[1..][j] {
                assert cat[1..][i] == cat[i + 1] && cat[1..][j] == cat[j + 1];
              }
            }
            forall j | 0 < j < |met| ensures met[0] != met[j] {
              assert met[j] == rest[j - 1] && rest[j - 1] in rest;
              var k :| 0 <= k < |cat[1..]| && cat[1..][k] == met[j];
              assert cat[k + 1] == met[j];
            }
          }
        }
        met
      else
        assert |rest| > 0 ==> rest[0] in rest && rest[0] != a;
        rest
  }

  /** Set the flag of every entry of `met` to `true`. */
  function MarkUnlocked(flags: map<string, Json>, met: seq<Achievement>): (r: map<string, Json>)
    ensures forall id :: id in r <==> id in flags || HasId(met, id)
    ensures forall id :: id in r && HasId(met, id) ==> r[id] == JBool(true)
    ensures forall id :: id in r && !HasId(met, id) ==> r[id] == flags[id]
    decreases |met|
  {
    if |met| == 0 then flags
    else
      assert forall id :: HasId(met, id) <==> id == met[0].id || HasId(met[1..], id) by {
        assert forall b :: b in met <==> b == met[0] || b in met[1..];
      }
      MarkUnlocked(flags[met[0].id := JBool(true)], met[1..])
  }

  /** The names of the entries, in order. */
  function Names(met: seq<Achievement>): (names: seq<string>)
    ensures |names| == |met|
    ensures forall i :: 0 <= i < |met| ==> names[i] == met[i].name
  {
    seq(|met|, i requires 0 <= i < |met| => met[i].name)
  }

  /** The stored unlock record, `{}` when the key is absent. */
  function AchievementsDoc(store: Store): Json {
    if AchievementsKey in store then store[AchievementsKey] else JObj(map[])
  }

  /** The flags of a record as property reads see them: a non-object has none. */
  function FlagsOf(doc: Json): map<string, Json> {
    if doc.JObj? then doc.fields else map[]
  }

  /**
   * The unlock record after one pass of `checkNewAchievements` over `cat`:
   * an id is unlocked exactly when it was before or an entry with that id
   * is met, and flags that were already set, like ids that nothing
   * earned, keep their stored value.
   */
  function UnlockRecord(prev: map<string, Json>, cat: seq<Achievement>, p: Pet): (flags: map<string, Json>)
    ensures forall id :: Unlocked(flags, id) <==> Unlocked(prev, id) || EarnedIn(cat, id, p)
    ensures forall id :: Unlocked(prev, id) || !EarnedIn(cat, id, p) ==>
      (id in flags <==> id in prev) && (id in flags ==> flags[id] == prev[id])
  {
    var met := NewlyMet(prev, cat, p);
    var flags := MarkUnlocked(prev, met);
    assert forall id :: HasId(met, id) ==> EarnedIn(cat, id, p) && !Unlocked(prev, id);
    assert forall id :: EarnedIn(cat, id, p) && !Unlocked(prev, id) ==> HasId(met, id) by {
      forall id | EarnedIn(cat, id, p) && !Unlocked(prev, id)
        ensures HasId(met, id)
      {
        var a :| a in cat && a.id == id && Meets(a.req, p);
        assert a in met;
      }
    }
    flags
  }

  /** After one pass nothing in `cat` is newly met: a second pass finds nothing to announce. */
  lemma NothingNewAfterUnlock(prev: map<string, Json>, cat: seq<Achievement>, p: Pet)
    ensures NewlyMet(UnlockRecord(prev, cat, p), cat, p) == []
  {
    var flags := UnlockRecord(prev, cat, p);
    forall a | a in cat && Meets(a.req, p)
      ensures Unlocked(flags, a.id)
    {
      assert EarnedIn(cat, a.id, p);
    }
    NothingNewWhenAllUnlocked(flags, cat, p);
  }

  /** When every met entry is already unlocked, nothing is newly met. */
  lemma NothingNewWhenAllUnlocked(flags: map<string, Json>, cat: seq<Achievement>, p: Pet)
    requires forall a :: a in cat && Meets(a.req, p) ==> Unlocked(flags, a.id)
    ensures NewlyMet(flags, cat, p) == []
  {
  }

  /** Writing back the value a key already holds changes nothing. */
  lemma RewriteSame(store: Store, key: string, v: Json)
    requires key in store && store[key] == v
    ensures store[key := v] == store
  {
  }

  /** What `checkNewAchievements` leaves: the store and the names it announces, in catalog order. */
  datatype Checked = Checked(store: Store, names: seq<string>)

  /**
   * `checkNewAchievements` over the catalog `cat`: every entry the pet now
   * meets and whose flag was not set is set to `true` and announced. A
   * stored `null` throws; on any other non-object record the property
   * writes are lost, so the store keeps its value and every met entry is
   * announced again on each check.
   */
  function CheckAchievements(cat: seq<Achievement>, store: Store, p: Pet): (r: Result<Checked>)
    ensures AchievementsDoc(store) == JNull <==> r == Err(NullAccess)
    ensures r.Ok? && AchievementsDoc(store).JObj? ==>
      r.value.store == store[AchievementsKey := JObj(UnlockRecord(AchievementsDoc(store).fields, cat, p))]
    ensures r.Ok? && !AchievementsDoc(store).JObj? ==> r.value.store == store
    ensures r.Ok? ==> |r.value.names| <= |cat|
    ensures r.Ok? ==> r.value.names == Names(NewlyMet(FlagsOf(AchievementsDoc(store)), cat, p))
  {
    var doc := AchievementsDoc(store);
    if doc.JNull? then Err(NullAccess)
    else
      var met := NewlyMet(FlagsOf(doc), cat, p);
      if doc.JObj? then Ok(Checked(store[AchievementsKey := JObj(MarkUnlocked(doc.fields, met))], Names(met)))
      else Ok(Checked(store, Names(met)))
  }

  /** The check the page runs, over its fixed catalog. */
  function CheckNewAchievements(store: Store, p: Pet): Result<Checked> {
    CheckAchievements(Catalog, store, p)
  }

  /**
   * The achievement sound plays, and a notification shows, exactly when
   * some entry is met whose flag was not set; the names come in catalog order.
   */
  lemma AnnouncesIffNewlyMet(cat: seq<Achievement>, store: Store, p: Pet)
    requires AchievementsDoc(store) != JNull
    ensures CheckAchievements(cat, store, p).Ok?
    ensures var names := CheckAchievements(cat, store, p).value.names;
      && (|names| > 0 <==> AnyNewlyMet(cat, FlagsOf(AchievementsDoc(store)), p))
      && (forall i :: 0 <= i < |names| ==> NameOfMet(cat, names[i], p))
      && forall a :: a in cat && Meets(a.req, p) && !Unlocked(FlagsOf(AchievementsDoc(store)), a.id) ==> a.name in names
  {
    var prev := FlagsOf(AchievementsDoc(store));
    assert CheckAchievements(cat, store, p).Ok?;
    Announcements(NewlyMet(prev, cat, p), CheckAchievements(cat, store, p).value.names, cat, prev, p);
  }

  /** Some catalog entry is met and its flag was not set. */
  predicate AnyNewlyMet(cat: seq<Achievement>, prev: map<string, Json>, p: Pet) {
    exists a :: a in cat && Meets(a.req, p) && !Unlocked(prev, a.id)
  }

  /** `name` is the name of a catalog entry the pet meets. */
  predicate NameOfMet(cat: seq<Achievement>, name: string, p: Pet) {
    exists a :: a in cat && a.name == name && Meets(a.req, p)
  }

  /** The names of the newly met entries: some iff any, each of a met entry, and every new one among them. */
  lemma Announcements(met: seq<Achievement>, names: seq<string>, cat: seq<Achievement>, prev: map<string, Json>, p: Pet)
    requires forall a :: a in met <==> a in cat && Meets(a.req, p) && !Unlocked(prev, a.id)
    requires names == Names(met)
    ensures |names| > 0 <==> AnyNewlyMet(cat, prev, p)
    ensures forall i :: 0 <= i < |names| ==> NameOfMet(cat, names[i], p)
    ensures forall a :: a in cat && Meets(a.req, p) && !Unlocked(prev, a.id) ==> a.name in names
  {
    if |met| > 0 {
      assert met[0] in met;
    }
    forall i | 0 <= i < |names|
      ensures NameOfMet(cat, names[i], p)
    {
      assert met[i] in met;
      assert met[i] in cat && met[i].name == names[i] && Meets(met[i].req, p);
    }
    forall a | a in cat && Meets(a.req, p) && !Unlocked(prev, a.id)
      ensures a.name in names
    {
      assert a in met;
      var i :| 0 <= i < |met| && met[i] == a;
      assert names[i] == a.name;
    }
  }

  /** The page's catalog has no entry twice, and no two entries share a name. */
  lemma CatalogNamesDistinct()
    ensures Distinct(Catalog)
    ensures forall a, b :: a in Catalog && b in Catalog && a.name == b.name ==> a == b
  {
  }

  /** Distinct entries drawn from a catalog whose names identify its entries have distinct names. */
  lemma DistinctNames(met: seq<Achievement>, cat: seq<Achievement>)
    requires Distinct(met)
    requires forall a :: a in met ==> a in cat
    requires forall a, b :: a in cat && b in cat && a.name == b.name ==> a == b
    ensures Distinct(Names(met))
  {
    forall i, j | 0 <= i < j < |met| ensures Names(met)[i] != Names(met)[j] {
      assert met[i] in met && met[j] in met;
    }
  }

  /** On the page each new achievement is announced once: no name repeats in one check. */
  lemma AnnouncesEachOnce(store: Store, p: Pet)
    requires AchievementsDoc(store) != JNull
    ensures CheckNewAchievements(store, p).Ok?
    ensures Distinct(CheckNewAchievements(store, p).value.names)
  {
    CatalogNamesDistinct();
    DistinctNames(NewlyMet(FlagsOf(AchievementsDoc(store)), Catalog, p), Catalog);
  }

  /** On an object record a second check with the same pet announces nothing and changes nothing. */
  lemma CheckAchievementsIdempotent(cat: seq<Achievement>, store: Store, p: Pet)
    requires AchievementsDoc(store).JObj?
    ensures CheckAchievements(cat, store, p).Ok?
    ensures var once := CheckAchievements(cat, store, p).value.store;
      CheckAchievements(cat, once, p) == Ok(Checked(once, []))
  {
    var flags := UnlockRecord(AchievementsDoc(store).fields, cat, p);
    var once := store[AchievementsKey := JObj(flags)];
    NothingNewAfterUnlock(AchievementsDoc(store).fields, cat, p);
    assert MarkUnlocked(flags, []) == flags;
    RewriteSame(once, AchievementsKey, JObj(flags));
  }

  /** Unlocking is monotone: a later check, with any pet, never locks what is unlocked. */
  lemma UnlocksPersist(cat: seq<Achievement>, store: Store, p: Pet, id: string)
    requires AchievementsDoc(store).JObj?
    requires Unlocked(AchievementsDoc(store).fields, id)
    ensures CheckAchievements(cat, store, p).Ok?
    ensures Unlocked(AchievementsDoc(CheckAchievements(cat, store, p).value.store).fields, id)
  {
  }

  // ---------------------------------------------------------------- export, import, reset

  /** Names of the three sections of an export document, with the store key each holds. */
  const PetSection: string := "petData"
  const ActivitySection: string := "activityData"
  const AchievementsSection: string := "achievementsData"

  /** A stored value, or `null` when the key is absent. */
  function ValueOrNull(store: Store, key: string): Json {
    if key in store then store[key] else JNull
  }

  /** `exportPetData`: the three stored documents (or null) and the export time. */
  function ExportAll(store: Store, now: string): (doc: Json)
    ensures doc.JObj?
    ensures Prop(doc, PetSection) == Some(ValueOrNull(store, PetKey))
    ensures Prop(doc, ActivitySection) == Some(ValueOrNull(store, ActivityKey))
    ensures Prop(doc, AchievementsSection) == Some(ValueOrNull(store, AchievementsKey))
    ensures Prop(doc, "exportDate") == Some(JStr(now))
  {
    JObj(map[
      PetSection := ValueOrNull(store, PetKey),
      ActivitySection := ValueOrNull(store, ActivityKey),
      AchievementsSection := ValueOrNull(store, AchievementsKey),
      "exportDate" := JStr(now)])
  }

  /**
   * Write `key` from section `name` of `doc` when that section is truthy:
   * the key ends up holding the section or keeping its old value, and no
   * other key changes.
   */
  function ImportSection(store: Store, doc: Json, name: string, key: string): (r: Store)
    ensures SectionImported(doc, name, key, store, r)
    ensures forall k :: k != key ==> (k in r <==> k in store)
    ensures forall k :: k != key && k in r ==> r[k] == store[k]
  {
    if TruthyField(Prop(doc, name)) then store[key := Prop(doc, name).value] else store
  }

  /**
   * `importPetData` once the file is read: `parsed` is the result of
   * `JSON.parse` (None when it throws). Each of the three keys is
   * overwritten only when the document has a truthy section for it; the
   * others keep their value. A top-level `null` throws before any write.
   */
  function ImportAll(parsed: Option<Json>, store: Store): (r: Result<Store>)
    ensures parsed.None? <==> r == Err(Malformed)
    ensures parsed == Some(JNull) <==> r == Err(NullAccess)
    ensures r.Ok? ==> forall k :: k in store && k !in {PetKey, ActivityKey, AchievementsKey} ==>
      k in r.value && r.value[k] == store[k]
    ensures r.Ok? ==> forall k :: k in r.value && k !in {PetKey, ActivityKey, AchievementsKey} ==> k in store
    ensures r.Ok? ==> SectionImported(parsed.value, PetSection, PetKey, store, r.value)
    ensures r.Ok? ==> SectionImported(parsed.value, ActivitySection, ActivityKey, store, r.value)
    ensures r.Ok? ==> SectionImported(parsed.value, AchievementsSection, AchievementsKey, store, r.value)
  {
    match parsed
    case None => Err(Malformed)
    case Some(doc) =>
      if doc.JNull? then Err(NullAccess)
      else
        var s1 := ImportSection(store, doc, PetSection, PetKey);
        var s2 := ImportSection(s1, doc, ActivitySection, ActivityKey);
        var s3 := ImportSection(s2, doc, AchievementsSection, AchievementsKey);
        Ok(s3)
  }

  /** After import, `key` holds the truthy section `name` of `doc`, or else its old value (or absence). */
  predicate SectionImported(doc: Json, name: string, key: string, before: Store, after: Store) {
    if TruthyField(Prop(doc, name)) then key in after && after[key] == Prop(doc, name).value
    else (key in after <==> key in before) && (key in before ==> after[key] == before[key])
  }

  /** What the widget itself ever writes under its three keys: only truthy documents. */
  predicate StoredTruthy(store: Store) {
    && (PetKey in store ==> Truthy(store[PetKey]))
    && (ActivityKey in store ==> Truthy(store[ActivityKey]))
    && (AchievementsKey in store ==> Truthy(store[AchievementsKey]))
  }

  /** `target` overwritten by `source` on those of the three keys present in `source`. */
  function Overlay(target: Store, source: Store): (r: Store)
    ensures forall k :: k in r <==> k in target || (k in source && k in {PetKey, ActivityKey, AchievementsKey})
  {
    var t1 := if PetKey in source then target[PetKey := source[PetKey]] else target;
    var t2 := if ActivityKey in source then t1[ActivityKey := source[ActivityKey]] else t1;
    if AchievementsKey in source then t2[AchievementsKey := source[AchievementsKey]] else t2
  }

  /**
   * Export/import round trip: importing an export of `source` into any
   * store restores every one of the three keys `source` holds and leaves
   * the keys it lacked alone.
   */
  lemma ExportImportRoundTrip(source: Store, target: Store, now: string)
    requires StoredTruthy(source)
    ensures ImportAll(Some(ExportAll(source, now)), target) == Ok(Overlay(target, source))
  {
  }

  /** Importing an export into the store it came from changes nothing. */
  lemma ExportImportIdentity(store: Store, now: string)
    ensures ImportAll(Some(ExportAll(store, now)), store) == Ok(store)
  {
    var out := ImportAll(Some(ExportAll(store, now)), store).value;
    forall k | k in out
      ensures k in store && out[k] == store[k]
    {
    }
    forall k | k in store
      ensures k in out
    {
    }
    assert out == store;
  }

  /** Import writes only truthy documents, so it keeps the store in the shape the widget writes. */
  lemma ImportKeepsStoredTruthy(parsed: Option<Json>, store: Store)
    requires StoredTruthy(store)
    requires ImportAll(parsed, store).Ok?
    ensures StoredTruthy(ImportAll(parsed, store).value)
  {
  }

  /**
   * The reset-all handler: remove the pet and activity keys. The
   * achievements record and every other key are left as they were.
   */
  function ResetAll(store: Store): (r: Store)
    ensures PetKey !in r && ActivityKey !in r
    ensures forall k :: k != PetKey && k != ActivityKey ==> (k in r <==> k in store)
    ensures forall k :: k in r ==> r[k] == store[k]
  {
    store - {PetKey, ActivityKey}
  }

  /** Reset twice is reset once. */
  lemma ResetAllIdempotent(store: Store)
    ensures ResetAll(ResetAll(store)) == ResetAll(store)
  {
  }

  /** After reset-all the reloaded page starts from the constructor's pet. */
  lemma ResetAllThenLoad(store: Store, today: Date, calendar: Option<Json> -> Option<Date>, now: string)
    ensures LoadData(ResetAll(store), today, calendar, now) == Ok(Loaded(false, Initial, ResetAll(store)))
  {
  }

  /** Re-importing an export taken before reset-all gives back the whole store. */
  lemma ResetThenReimport(store: Store, now: string)
    requires StoredTruthy(store)
    ensures ImportAll(Some(ExportAll(store, now)), ResetAll(store)) == Ok(store)
  {
    ExportImportRoundTrip(store, ResetAll(store), now);
    assert Overlay(ResetAll(store), store) == store;
  }

  // ---------------------------------------------------------------- level progress

  /** Steps between two thresholds; `Infinite` past the last level. */
  datatype Gap = Finite(steps: int) | Infinite

  /** The progress-bar figures: steps past the current level's threshold and steps between the two thresholds. */
  datatype Progress = Progress(done: int, needed: Gap)

  /**
   * The arithmetic of `updateLevelProgress` for a level of at most 100
   * (a higher level, possible only from hand-edited data, yields NaN).
   * At level 100 the next threshold is `Infinity` and so is the gap.
   */
  function LevelProgress(p: Pet): (r: Option<Progress>)
    ensures p.level > MaxLevel <==> r.None?
    ensures r.Some? ==> r.value.done == p.totalSteps - StepsForLevel(p.level).n
    ensures r.Some? ==> (r.value.needed == Infinite <==> p.level == MaxLevel)
    ensures r.Some? && p.level < MaxLevel ==>
      r.value.needed == Finite(StepsForLevel(p.level + 1).n - StepsForLevel(p.level).n)
  {
    match StepsForLevel(p.level)
    case Unreachable => None
    case Steps(current) =>
      match StepsForLevel(p.level + 1)
      case Unreachable => Some(Progress(p.totalSteps - current, Infinite))
      case Steps(next) => Some(Progress(p.totalSteps - current, Finite(next - current)))
  }

  /**
   * The bar's width in percent, `(stepProgress / stepsNeeded) * 100`: a
   * finite progress over an infinite gap is 0, and a zero gap gives no
   * finite width (JavaScript's Infinity or NaN).
   */
  function Percent(pr: Progress): (w: Option<real>)
    ensures pr.needed == Infinite ==> w == Some(0.0)
    ensures w.None? <==> pr.needed == Finite(0)
    ensures w.Some? && pr.needed.Finite? ==> w.value * pr.needed.steps as real == 100.0 * pr.done as real
  {
    match pr.needed
    case Infinite => Some(0.0)
    case Finite(n) => if n == 0 then None else Some(pr.done as real / n as real * 100.0)
  }

  /**
   * For a pet whose level agrees with its steps, the bar is partly filled:
   * progress lies in [0, gap) and the width in [0, 100). At level 100 it is empty.
   */
  lemma ProgressInRange(p: Pet)
    requires p.totalSteps >= 0
    requires Consistent(p)
    ensures LevelProgress(p).Some?
    ensures var pr := LevelProgress(p).value;
      && 0 <= pr.done
      && (p.level < MaxLevel ==> pr.needed.Finite? && pr.done < pr.needed.steps)
      && Percent(pr).Some? && 0.0 <= Percent(pr).value < 100.0
  {
    var l := p.level;
    LevelForIsHighest(p.totalSteps, l);
    assert Reaches(p.totalSteps, l);
    var pr := LevelProgress(p).value;
    if l < MaxLevel {
      assert !Reaches(p.totalSteps, l + 1);
      StepsStrictlyIncreasing(l, l + 1);
      ShareBelowWhole(pr.done, pr.needed.steps);
    }
  }

  /** A part in [0, whole) is a percentage in [0, 100). */
  lemma ShareBelowWhole(part: int, whole: int)
    requires 0 <= part < whole
    ensures 0.0 <= part as real / whole as real * 100.0 < 100.0
  {
    var q := part as real / whole as real;
    assert q * whole as real == part as real;
    assert 0.0 <= q < 1.0;
  }

  // ---------------------------------------------------------------- the add-steps click

  /** A level check inside the click handler: the pet after `checkLevelUp`, and whether the sound and confetti play. */
  datatype Levelled = Levelled(pet: Pet, celebrate: bool)

  /** `checkLevelUp`, then compare the level with `oldLevel`. */
  function Recheck(oldLevel: int, p: Pet): (r: Levelled)
    ensures r.pet.level >= p.level && r.pet.level >= LevelFor(p.totalSteps)
    ensures r.pet == p.(level := r.pet.level)
    ensures r.celebrate <==> r.pet.level > oldLevel
  {
    var checked := CheckLevelUp(p);
    Levelled(checked, checked.level > oldLevel)
  }

  /** A pet whose level already matches its steps is not changed by a recheck, so a recheck against its own level never celebrates. */
  lemma RecheckOwnLevel(p: Pet)
    requires p.level >= LevelFor(p.totalSteps)
    ensures Recheck(p.level, p) == Levelled(p, false)
  {
  }

  /** What a click on "add steps" leaves: the session, whether the level-up sound and confetti play, and the names announced. */
  datatype Click = Click(session: Session, celebrate: bool, announced: seq<string>)

  /** The tail of the handler: record the steps in the week, then check the achievements. */
  function FinishClick(store: Store, lv: Levelled, steps: int, weekday: int): (r: Result<Click>)
    requires 0 <= weekday <= 6
    ensures r.Ok? ==> r.value.session.pet == lv.pet && r.value.celebrate == lv.celebrate
    ensures ActivityKey !in store && AchievementsKey !in store ==> r.Ok?
    ensures UpdateWeeklyActivity(store, steps, weekday).Err? ==> r == Err(UpdateWeeklyActivity(store, steps, weekday).fault)
  {
    var store1 :- UpdateWeeklyActivity(store, steps, weekday);
    var checked :- CheckNewAchievements(store1, lv.pet);
    Ok(Click(Session(lv.pet, checked.store), lv.celebrate, checked.names))
  }

  /**
   * A `null` in a slot other than today's still stops the click: the
   * redraw formats every entry of the week, so the achievement check is
   * never reached and nothing is unlocked.
   */
  lemma NullEntryStopsClick(store: Store, lv: Levelled, steps: int)
    requires ActivityKey in store
    requires store[ActivityKey] == JObj(map["weeklySteps" := JArr([JNull, JNum(0.0), JNum(0.0), JNum(0.0), JNum(0.0), JNum(0.0), JNum(0.0)])])
    ensures FinishClick(store, lv, steps, 2) == Err(OutOfModel)
  {
    var week := WeekOf(store[ActivityKey]);
    assert week.JArr? && !week.items[0].JNum?;
    assert StoredWeek(store).None?;
    assert UpdateWeeklyActivity(store, steps, 2) == Err(OutOfModel);
  }

  /** A `null` in today's slot does not stop the click: the sum is a number and the achievement check runs. */
  lemma NullTodayClickContinues(store: Store, lv: Levelled, steps: int)
    requires ActivityKey in store && AchievementsKey !in store
    requires store[ActivityKey] == JObj(map["weeklySteps" := JArr([JNum(0.0), JNull, JNum(0.0), JNum(0.0), JNum(0.0), JNum(0.0), JNum(0.0)])])
    ensures FinishClick(store, lv, steps, 2).Ok?
    ensures StoredWeek(FinishClick(store, lv, steps, 2).value.session.store) ==
      Some([0.0, steps as real, 0.0, 0.0, 0.0, 0.0, 0.0])
  {
    var doc := store[ActivityKey];
    var week := [JNum(0.0), JNum(steps as real), JNum(0.0), JNum(0.0), JNum(0.0), JNum(0.0), JNum(0.0)];
    assert Bumpable(WeekOf(doc).items, 1);
    assert DayIndex(2) == 1;
    assert WeekOf(doc).items[1 := JNum(0.0 + steps as real)] == week;
    assert BumpWeek(doc, 1, steps) == Ok(JObj(doc.fields["weeklySteps" := JArr(week)]));
    var updated := store[ActivityKey := JObj(doc.fields["weeklySteps" := JArr(week)])];
    assert UpdateWeeklyActivity(store, steps, 2) == Ok(updated);
    NumbersOf(week, [0.0, steps as real, 0.0, 0.0, 0.0, 0.0, 0.0]);
    assert StoredWeek(updated) == Some([0.0, steps as real, 0.0, 0.0, 0.0, 0.0, 0.0]);
  }

  /**
   * The add-steps click handler as written: `steps` is
   * `parseInt(input) || 0`; the old level is read only after `addSteps`
   * has already recomputed it.
   */
  function OnAddSteps(s: Session, steps: int, weekday: int, now: string): (r: Result<Click>)
    requires 0 <= weekday <= 6
    ensures steps <= 0 ==> r == Ok(Click(s, false, []))
    ensures steps > 0 && r.Ok? ==> r.value.session.pet == AddSteps(s.pet, steps)
    ensures steps > 0 && ActivityKey !in s.store && AchievementsKey !in s.store ==> r.Ok?
  {
    if steps <= 0 then Ok(Click(s, false, []))
    else
      var added := AddStepsSaved(s, steps, now);
      FinishClick(added.store, Recheck(added.pet.level, added.pet), steps, weekday)
  }

  /** The handler as written never plays the level-up sound or confetti. */
  lemma OnAddStepsNeverCelebrates(s: Session, steps: int, weekday: int, now: string)
    requires 0 <= weekday <= 6
    requires OnAddSteps(s, steps, weekday, now).Ok?
    ensures !OnAddSteps(s, steps, weekday, now).value.celebrate
  {
    if steps > 0 {
      RecheckOwnLevel(AddSteps(s.pet, steps));
    }
  }

  /** A click that does level the pet up, yet shows nothing: from 900 to 3000 steps, level 1 to 2. */
  lemma LevelUpGoesUncelebrated(s: Session, steps: int, now: string)
    requires s.pet == Initial.(totalSteps := 900) && steps == 2100
    requires ActivityKey !in s.store && AchievementsKey !in s.store
    ensures OnAddSteps(s, steps, 1, now).Ok?
    ensures OnAddSteps(s, steps, 1, now).value.session.pet.level == 2 > s.pet.level
    ensures !OnAddSteps(s, steps, 1, now).value.celebrate
  {
    LevelUpAt3000(s.pet);
    OnAddStepsNeverCelebrates(s, steps, 1, now);
  }

  /**
   * The handler with the old level read before `addSteps`: the sound and
   * confetti play exactly when the click raised the level.
   */
  function OnAddStepsCorrected(s: Session, steps: int, weekday: int, now: string): (r: Result<Click>)
    requires 0 <= weekday <= 6
    ensures steps <= 0 ==> r == Ok(Click(s, false, []))
    ensures steps > 0 && r.Ok? ==> r.value.session.pet == AddSteps(s.pet, steps)
    ensures steps > 0 && ActivityKey !in s.store && AchievementsKey !in s.store ==> r.Ok?
    ensures r.Ok? ==> (r.value.celebrate <==> r.value.session.pet.level > s.pet.level)
  {
    if steps <= 0 then Ok(Click(s, false, []))
    else
      var oldLevel := s.pet.level;
      var added := AddStepsSaved(s, steps, now);
      FinishClick(added.store, Recheck(oldLevel, added.pet), steps, weekday)
  }

  /** With the correction, the 900-to-3000 click celebrates. */
  lemma CorrectedCelebratesLevelUp(s: Session, steps: int, now: string)
    requires s.pet == Initial.(totalSteps := 900) && steps == 2100
    requires ActivityKey !in s.store && AchievementsKey !in s.store
    ensures OnAddStepsCorrected(s, steps, 1, now).Ok?
    ensures OnAddStepsCorrected(s, steps, 1, now).value.celebrate
  {
    LevelUpAt3000(s.pet);
  }

  /** The care buttons: each raises one stat by 10 (clamped at 100) and saves. */
  function Care(s: Session, stat: Stat, now: string): (r: Session)
    ensures r.pet.stats.Get(stat) == Min(StatCap, s.pet.stats.Get(stat) + 10.0)
    ensures forall o :: o != stat ==> r.pet.stats.Get(o) == s.pet.stats.Get(o)
    ensures r.pet.level == s.pet.level && r.pet.totalSteps == s.pet.totalSteps && r.pet.stepsToday == s.pet.stepsToday
    ensures r.store == Save(s.store, r.pet, now)
  {
    IncreaseStatSaved(s, stat, 10.0, now)
  }
}

=== FILE: format.dfy ===
/**
 * `formatNumber`: the decimal text of an integer with a comma before
 * every group of three digits counted from the right, as the regular
 * expression `\B(?=(\d{3})+(?!\d))` places them.
 */
module Format {
  import opened Wrappers

  predicate IsDigit(c: char) {
    '0' <= c <= '9'
  }

  predicate AllDigits(s: string) {
    forall i :: 0 <= i < |s| ==> IsDigit(s[i])
  }

  function DigitChar(d: int): (c: char)
    requires 0 <= d <= 9
    ensures IsDigit(c)
  {
    ['0', '1', '2', '3', '4', '5', '6', '7', '8', '9'][d]
  }

  function DigitValue(c: char): (d: int)
    requires IsDigit(c)
    ensures 0 <= d <= 9
  {
    (c as int) - ('0' as int)
  }

  lemma DigitRoundTrip(d: int)
    requires 0 <= d <= 9
    ensures DigitValue(DigitChar(d)) == d
  {
  }

  /** The number a digit string denotes. */
  function Value(s: string): (n: nat)
    requires AllDigits(s)
    decreases |s|
  {
    if |s| == 0 then 0 else Value(s[..|s| - 1]) * 10 + DigitValue(s[|s| - 1])
  }

  /** `n.toString()` for a non-negative integer: its decimal digits without leading zeros. */
  function Digits(n: nat): (s: string)
    ensures |s| >= 1 && AllDigits(s)
    ensures s[0] == '0' ==> n == 0
    ensures Value(s) == n
    decreases n
  {
    DigitRoundTrip(n % 10);
    if n < 10 then [DigitChar(n)]
    else
      var s := Digits(n / 10) + [DigitChar(n % 10)];
      assert s[..|s| - 1] == Digits(n / 10);
      s
  }

  /** The text with every comma removed. */
  function StripCommas(s: string): (r: string)
    ensures forall i :: 0 <= i < |r| ==> r[i] != ','
    ensures |r| <= |s|
  {
    if |s| == 0 then []
    else (if s[0] == ',' then [] else [s[0]]) + StripCommas(s[1..])
  }

  lemma StripCommasAppend(a: string, b: string)
    ensures StripCommas(a + b) == StripCommas(a) + StripCommas(b)
    decreases |a|
  {
    if |a| == 0 {
      assert a + b == b;
    } else {
      assert (a + b)[1..] == a[1..] + b;
      StripCommasAppend(a[1..], b);
    }
  }

  /**
   * The regular expression's placement, read from position `i` on: a
   * comma goes before each digit that is not the first of the string and
   * that has a positive multiple of three digits from it to the end.
   */
  function InsertCommas(d: string, i: nat): (r: string)
    requires i <= |d|
    decreases |d| - i
  {
    if i == |d| then []
    else (if 0 < i && (|d| - i) % 3 == 0 then "," else "") + [d[i]] + InsertCommas(d, i + 1)
  }

  /** Every comma, and nothing else, sits a multiple of four characters before the end. */
  predicate CommasEveryFour(r: string) {
    forall k :: 0 <= k < |r| ==> (r[k] == ',' <==> (|r| - k) % 4 == 0)
  }

  /** m digits take m + m/3 characters once every full group of three has its comma. */
  lemma GroupedLength(m: int)
    requires m >= 1
    ensures (if m % 3 == 0 then 2 else 1) + (m - 1) + (m - 1) / 3 == m + m / 3
    ensures (m + m / 3) % 4 == 0 <==> m % 3 == 0
  {
  }

  /** From any position after the first, m digits become m + m/3 characters. */
  lemma {:induction false} InsertLength(d: string, i: nat)
    requires 1 <= i <= |d|
    ensures |InsertCommas(d, i)| == (|d| - i) + (|d| - i) / 3
    decreases |d| - i
  {
    if i < |d| {
      InsertLength(d, i + 1);
      GroupedLength(|d| - i);
    }
  }

  /** Characters put in front of a well-spaced text keep it well spaced if they are placed by the same rule. */
  lemma ShiftSpacing(lead: string, rest: string)
    requires CommasEveryFour(rest)
    requires forall k :: 0 <= k < |lead| ==> (lead[k] == ',' <==> (|lead| + |rest| - k) % 4 == 0)
    ensures CommasEveryFour(lead + rest)
  {
    var r := lead + rest;
    forall k | 0 <= k < |r|
      ensures r[k] == ',' <==> (|r| - k) % 4 == 0
    {
      if k >= |lead| {
        assert r[k] == rest[k - |lead|];
        assert |r| - k == |rest| - (k - |lead|);
      }
    }
  }

  /** From any position after the first, the commas sit every four characters from the end. */
  lemma {:induction false} InsertSpacing(d: string, i: nat)
    requires 1 <= i <= |d| && AllDigits(d)
    ensures CommasEveryFour(InsertCommas(d, i))
    decreases |d| - i
  {
    if i < |d| {
      InsertSpacing(d, i + 1);
      InsertLength(d, i);
      GroupedLength(|d| - i);
      var rest := InsertCommas(d, i + 1);
      var lead := (if (|d| - i) % 3 == 0 then "," else "") + [d[i]];
      assert InsertCommas(d, i) == lead + rest;
      assert IsDigit(d[i]);
      ShiftSpacing(lead, rest);
    }
  }

  /** From any position, removing the commas gives back the digits from there on. */
  lemma {:induction false} InsertStrips(d: string, i: nat)
    requires i <= |d| && AllDigits(d)
    ensures StripCommas(InsertCommas(d, i)) == d[i..]
    decreases |d| - i
  {
    if i < |d| {
      InsertStrips(d, i + 1);
      var comma := 0 < i && (|d| - i) % 3 == 0;
      var lead := (if comma then "," else "") + [d[i]];
      var rest := InsertCommas(d, i + 1);
      assert InsertCommas(d, i) == lead + rest;
      StripCommasAppend(lead, rest);
      StripLead(comma, d[i]);
      SliceCons(d, i);
    }
  }

  lemma SliceCons(s: string, i: nat)
    requires i < |s|
    ensures s[i..] == [s[i]] + s[i + 1..]
  {
  }

  /** A digit with or without a comma in front strips to the digit alone. */
  lemma StripLead(comma: bool, x: char)
    requires IsDigit(x)
    ensures StripCommas((if comma then "," else "") + [x]) == [x]
  {
    if comma {
      assert ([','] + [x])[1..] == [x];
    }
  }

  /**
   * The digits of a number with its separators: removing the commas gives
   * the digits back, the length grows by one comma per full group after
   * the first, and the commas sit exactly a positive multiple of four
   * characters before the end, so every group after the first has three
   * digits and the first has one to three.
   */
  function Group(d: string): (r: string)
    requires |d| >= 1 && AllDigits(d)
    ensures StripCommas(r) == d
    ensures |r| == |d| + (|d| - 1) / 3
    ensures forall k :: 0 <= k < |r| ==> (r[k] == ',' <==> 0 < k && (|r| - k) % 4 == 0)
  {
    var r := InsertCommas(d, 0);
    InsertStrips(d, 0);
    InsertLength(d, 1);
    InsertSpacing(d, 1);
    GroupedLength(|d|);
    var rest := InsertCommas(d, 1);
    assert r == [d[0]] + rest;
    assert forall k :: 1 <= k < |r| ==> r[k] == rest[k - 1];
    r
  }

  /** `formatNumber(n)` for an integer: a minus sign, if any, then the grouped digits. */
  function FormatNumber(n: int): (s: string)
    ensures |s| >= 1
    ensures n < 0 <==> s[0] == '-'
    ensures n < 0 ==> s[1..] == Group(Digits(-n))
    ensures n >= 0 ==> s == Group(Digits(n))
  {
    if n < 0 then "-" + Group(Digits(-n)) else Group(Digits(n))
  }

  /** Reading a formatted number back: drop the sign and the commas, and read the digits. */
  function ParseFormatted(s: string): (n: Option<int>)
  {
    if |s| > 0 && s[0] == '-' then
      var body := StripCommas(s[1..]);
      if AllDigits(body) then Some(0 - Value(body)) else None
    else
      var body := StripCommas(s);
      if AllDigits(body) then Some(Value(body)) else None
  }

  /** Formatting loses nothing: the digits, and so the number, come back. */
  lemma FormatRoundTrip(n: int)
    ensures ParseFormatted(FormatNumber(n)) == Some(n)
  {
    var s := FormatNumber(n);
    if n < 0 {
      assert s[0] == '-';
    } else {
      assert s[0] != '-';
    }
  }
}

=== FILE: intmath.dfy ===
/** Exact integer square root, used to state `floor(1000 * L^1.5)` without floating point. */
module IntMath {

  /** 0 <= a <= b implies a*a <= b*b. */
  lemma SquareMonotone(a: nat, b: nat)
    requires a <= b
    ensures a * a <= b * b
  {
    assert a * a <= a * b;
    assert a * b <= b * b;
  }

  /** One halving step of the root: from the root of n/4 to a bracket for n. */
  lemma QuarterStep(n: nat, s: nat)
    requires s * s <= n / 4 < (s + 1) * (s + 1)
    ensures (2 * s) * (2 * s) <= n < (2 * s + 2) * (2 * s + 2)
  {
    var q := n / 4;
    assert 4 * q <= n < 4 * q + 4;
    assert (2 * s) * (2 * s) == 4 * (s * s);
    assert (2 * s + 2) * (2 * s + 2) == 4 * ((s + 1) * (s + 1));
  }

  /** The integer square root: the unique r with r*r <= n < (r+1)*(r+1). */
  function ISqrt(n: nat): (r: nat)
    ensures r * r <= n < (r + 1) * (r + 1)
    decreases n
  {
    if n == 0 then 0
    else if n < 4 then 1
    else
      var s := ISqrt(n / 4);
      QuarterStep(n, s);
      var t := 2 * s;
      if (t + 1) * (t + 1) <= n then t + 1 else t
  }

  /** Any r whose square fits under n is at most the root. */
  lemma ISqrtAtLeast(n: nat, r: nat)
    requires r * r <= n
    ensures r <= ISqrt(n)
  {
    var s := ISqrt(n);
    if s < r {
      SquareMonotone(s + 1, r);
    }
  }

  /** Any r whose square exceeds n is above the root. */
  lemma ISqrtBelow(n: nat, r: nat)
    requires n < r * r
    ensures ISqrt(n) < r
  {
    var s := ISqrt(n);
    if r <= s {
      SquareMonotone(r, s);
    }
  }

  /** The bracket determines the root. */
  lemma ISqrtUnique(n: nat, r: nat)
    requires r * r <= n < (r + 1) * (r + 1)
    ensures ISqrt(n) == r
  {
    ISqrtAtLeast(n, r);
    ISqrtBelow(n, r + 1);
  }

  /** The root is monotone. */
  lemma ISqrtMonotone(a: nat, b: nat)
    requires a <= b
    ensures ISqrt(a) <= ISqrt(b)
  {
    ISqrtAtLeast(b, ISqrt(a));
  }
}

=== FILE: json.dfy ===
/**
 * JSON documents as the browser's durable store holds them, with the
 * JavaScript notions the widget relies on: truthiness and property reads.
 */
module Json {
  import opened Wrappers

  /** A parsed JSON value. Numbers are exact reals; JSON has no NaN or Infinity. */
  datatype Json =
    | JNull
    | JBool(b: bool)
    | JNum(n: real)
    | JStr(s: string)
    | JArr(items: seq<Json>)
    | JObj(fields: map<string, Json>)

  /** JavaScript truthiness of a JSON value: null, false, 0 and "" are falsy. */
  predicate Truthy(j: Json) {
    match j
    case JNull => false
    case JBool(b) => b
    case JNum(n) => n != 0.0
    case JStr(s) => s != ""
    case JArr(_) => true
    case JObj(_) => true
  }

  /** Truthiness of a property read, where `None` is `undefined`. */
  predicate TruthyField(v: Option<Json>) {
    v.Some? && Truthy(v.value)
  }

  /**
   * `j[key]` for a value that is not null: only an object has own
   * properties that survive JSON; any other value yields `undefined`.
   */
  function Prop(j: Json, key: string): (v: Option<Json>)
    ensures v.Some? <==> j.JObj? && key in j.fields
    ensures v.Some? ==> v.value == j.fields[key]
  {
    if j.JObj? && key in j.fields then Some(j.fields[key]) else None
  }

  /** `v || fallback` in JavaScript. */
  function OrElse(v: Option<Json>, fallback: Json): (r: Json)
    ensures TruthyField(v) ==> r == v.value
    ensures !TruthyField(v) ==> r == fallback
  {
    if TruthyField(v) then v.value else fallback
  }
}

=== FILE: leveling.dfy ===
/**
 * The leveling function of the pet: steps required for each level
 * (`getStepsForLevel`) and the level a step total qualifies for
 * (the downward scan in `checkLevelUp`).
 */
module Leveling {
  import opened IntMath

  /** Levels run from 1 to this bound; higher levels are unreachable. */
  const MaxLevel: int := 100

  /** A step requirement: a finite count, or JavaScript's `Infinity`. */
  datatype Threshold = Steps(n: nat) | Unreachable

  function Cube(x: nat): nat {
    x * x * x
  }

  /** 10^6 * L^3, whose integer square root is floor(1000 * L^1.5). */
  function ScaledCube(level: nat): nat {
    1000000 * Cube(level)
  }

  /** n is floor(sqrt(x)). */
  predicate IsFloorRoot(n: nat, x: nat) {
    n * n <= x < (n + 1) * (n + 1)
  }

  /**
   * Steps needed for a level: 0 up to level 1, unreachable above 100,
   * otherwise floor(1000 * level^1.5), i.e. the largest n with n*n <= 10^6 * level^3.
   */
  function StepsForLevel(level: int): (t: Threshold)
    ensures level <= 1 ==> t == Steps(0)
    ensures level > MaxLevel ==> t == Unreachable
    ensures 1 < level <= MaxLevel ==> t.Steps? && IsFloorRoot(t.n, ScaledCube(level))
  {
    if level <= 1 then Steps(0)
    else if level > MaxLevel then Unreachable
    else Steps(ISqrt(ScaledCube(level)))
  }

  /** `totalSteps >= getStepsForLevel(level)`; nothing reaches `Infinity`. */
  predicate Reaches(total: int, level: int) {
    StepsForLevel(level).Steps? && total >= StepsForLevel(level).n
  }

  /** Pins a threshold to a value by its square bracket. */
  lemma ThresholdIs(level: int, n: nat)
    requires 1 < level <= MaxLevel
    requires n * n <= ScaledCube(level) < (n + 1) * (n + 1)
    ensures StepsForLevel(level) == Steps(n)
  {
    ISqrtUnique(ScaledCube(level), n);
  }

  /** Level 2 needs 2,828 steps, as the source's comment says. */
  lemma ThresholdOfLevel2()
    ensures StepsForLevel(2) == Steps(2828)
  {
    assert ScaledCube(2) == 8000000;
    assert 2828 * 2828 == 7997584 && 2829 * 2829 == 8003241;
    ThresholdIs(2, 2828);
  }

  /** Level 3 needs 5,196 steps. */
  lemma ThresholdOfLevel3()
    ensures StepsForLevel(3) == Steps(5196)
  {
    assert ScaledCube(3) == 27000000;
    assert 5196 * 5196 == 26998416 && 5197 * 5197 == 27008809;
    ThresholdIs(3, 5196);
  }

  /** Level 10 needs 31,622 steps, as the source's comment says. */
  lemma ThresholdOfLevel10()
    ensures StepsForLevel(10) == Steps(31622)
  {
    assert ScaledCube(10) == 1000000000;
    assert 31622 * 31622 == 999950884 && 31623 * 31623 == 1000014129;
    ThresholdIs(10, 31622);
  }

  /** Level 50 needs 353,553 steps, as the source's comment says. */
  lemma ThresholdOfLevel50()
    ensures StepsForLevel(50) == Steps(353553)
  {
    assert ScaledCube(50) == 125000000000;
    assert 353553 * 353553 == 124999723809 && 353554 * 353554 == 125000430916;
    ThresholdIs(50, 353553);
  }

  /** Level 100 needs 1,000,000 steps, as the source's comment says. */
  lemma ThresholdOfLevel100()
    ensures StepsForLevel(100) == Steps(1000000)
  {
    assert ScaledCube(100) == 1000000000000;
    assert 1000000 * 1000000 == 1000000000000 && 1000001 * 1000001 == 1000002000001;
    ThresholdIs(100, 1000000);
  }

  /** (L+1)^3 expanded. */
  lemma CubeSucc(x: nat)
    ensures Cube(x + 1) == Cube(x) + 3 * (x * x) + 3 * x + 1
  {
    assert (x + 1) * (x + 1) == x * x + 2 * x + 1;
    assert (x * x + 2 * x + 1) * (x + 1) == x * x * x + 3 * (x * x) + 3 * x + 1;
  }

  /** L^3 <= (L^2)^2 for L >= 1. */
  lemma CubeBelowFourth(level: nat)
    requires level >= 1
    ensures Cube(level) <= (level * level) * (level * level)
  {
    var sq := level * level;
    assert Cube(level) == sq * level;
    assert sq * level <= sq * sq by {
      assert level <= sq;
    }
  }

  /** The root of 10^6 * L^3 is at most 1000 * L^2. */
  lemma RootBound(level: nat)
    requires level >= 1
    ensures ISqrt(ScaledCube(level)) <= 1000 * (level * level)
  {
    var sq := level * level;
    var m := 1000 * sq;
    var q := sq * sq;
    CubeBelowFourth(level);
    assert m * m == 1000000 * q;
    assert ScaledCube(level) <= m * m;
    assert (m + 1) * (m + 1) == m * m + 2 * m + 1;
    ISqrtBelow(ScaledCube(level), m + 1);
  }

  /** Adding at most 2m+1 to a bracketed square keeps the next square in range. */
  lemma NextSquareFits(a: nat, b: nat, r: nat, m: nat)
    requires r * r <= a
    requires r <= m
    requires a + 2 * m + 1 <= b
    ensures (r + 1) * (r + 1) <= b
  {
    assert (r + 1) * (r + 1) == r * r + 2 * r + 1;
  }

  /** A root of at most m grows once the radicand grows by more than 2m. */
  lemma RootsApart(a: nat, b: nat, m: nat)
    requires ISqrt(a) <= m
    requires a + 2 * m + 1 <= b
    ensures ISqrt(a) < ISqrt(b)
  {
    var r := ISqrt(a);
    NextSquareFits(a, b, r, m);
    ISqrtAtLeast(b, r + 1);
  }

  /** Consecutive levels from 2 on need strictly more steps. */
  lemma RootStrictStep(level: nat)
    requires 2 <= level < MaxLevel
    ensures ISqrt(ScaledCube(level)) < ISqrt(ScaledCube(level + 1))
  {
    var a := ScaledCube(level);
    var b := ScaledCube(level + 1);
    var m := 1000 * (level * level);
    assert ISqrt(a) <= m by {
      RootBound(level);
    }
    assert a + 2 * m + 1 <= b by {
      CubeSucc(level);
      ScaledGap(Cube(level), Cube(level + 1), level * level, level);
    }
    RootsApart(a, b, m);
  }

  /** The scaled cubes of consecutive levels differ by more than 2000 * L^2. */
  lemma ScaledGap(c: nat, next: nat, sq: nat, level: nat)
    requires next == c + 3 * sq + 3 * level + 1
    ensures 1000000 * c + 2 * (1000 * sq) + 1 <= 1000000 * next
  {
  }

  /** Every level above 1 needs at least one step. */
  lemma ThresholdPositive(level: int)
    requires 1 < level <= MaxLevel
    ensures StepsForLevel(level).n > 0
  {
    assert Cube(level) >= 1;
    ISqrtAtLeast(ScaledCube(level), 1);
  }

  /** getStepsForLevel is strictly increasing on 1..100. */
  lemma {:induction false} StepsStrictlyIncreasing(lo: int, hi: int)
    requires 1 <= lo < hi <= MaxLevel
    ensures StepsForLevel(lo).n < StepsForLevel(hi).n
    decreases hi - lo
  {
    if lo == 1 {
      ThresholdPositive(hi);
    } else {
      RootStrictStep(lo);
      if lo + 1 < hi {
        StepsStrictlyIncreasing(lo + 1, hi);
      }
    }
  }

  /** Reaching a level means reaching every lower level. */
  lemma ReachesDownward(total: int, lo: int, hi: int)
    requires 1 <= lo <= hi
    requires Reaches(total, hi)
    ensures Reaches(total, lo)
  {
    if lo < hi {
      StepsStrictlyIncreasing(lo, hi);
    }
  }

  /** Every non-negative total reaches level 1. */
  lemma ReachesLevelOne(total: int)
    ensures Reaches(total, 1) <==> total >= 0
  {
  }

  /**
   * The scan of `checkLevelUp`: try levels from `from` down to 1 and take
   * the first one reached; 1 when none is.
   */
  function ScanDown(total: int, from: int): (level: int)
    requires from <= MaxLevel
    ensures 1 <= level <= MaxLevel
    ensures level == 1 || (level <= from && Reaches(total, level))
    ensures forall l :: level < l <= from ==> !Reaches(total, l)
    decreases from
  {
    if from < 1 then 1
    else if Reaches(total, from) then from
    else ScanDown(total, from - 1)
  }

  /**
   * The level a step total qualifies for: the scan from level 100 down.
   * The result is reached (for a total that is not negative) and no
   * higher level up to 100 is.
   */
  function LevelFor(total: int): (level: int)
    ensures 1 <= level <= MaxLevel
    ensures total >= 0 ==> Reaches(total, level)
    ensures forall l :: level < l <= MaxLevel ==> !Reaches(total, l)
  {
    ReachesLevelOne(total);
    ScanDown(total, MaxLevel)
  }

  /** `level` is the highest level in 1..100 that `total` reaches. */
  ghost predicate IsHighestReached(total: int, level: int) {
    && 1 <= level <= MaxLevel
    && Reaches(total, level)
    && forall l :: level < l <= MaxLevel ==> !Reaches(total, l)
  }

  /** For a non-negative total the scan finds the highest level reached, and only it. */
  lemma LevelForIsHighest(total: int, level: int)
    requires total >= 0
    ensures IsHighestReached(total, LevelFor(total))
    ensures IsHighestReached(total, level) <==> level == LevelFor(total)
  {
    ReachesLevelOne(total);
  }

  /** A negative total (never produced by intake) stays at level 1. */
  lemma LevelForNegative(total: int)
    requires total < 0
    ensures LevelFor(total) == 1
  {
  }

  /** More steps never mean a lower level. */
  lemma LevelForMonotone(total: int, more: int)
    requires total <= more
    ensures LevelFor(total) <= LevelFor(more)
  {
    var l := LevelFor(total);
    if l > 1 {
      assert Reaches(more, l);
    }
  }

  /**
   * A total that reaches `level` but not the next level sits at `level`:
   * the scan returns the level bracketed by two consecutive thresholds.
   */
  lemma LevelForBracket(total: int, level: int)
    requires 1 <= level <= MaxLevel
    requires Reaches(total, level)
    requires level == MaxLevel || !Reaches(total, level + 1)
    ensures LevelFor(total) == level
  {
    forall l | level + 1 < l <= MaxLevel
      ensures !Reaches(total, l)
    {
      StepsStrictlyIncreasing(level + 1, l);
    }
    LevelForIsHighest(total, level);
  }

  /** Leveling inverse consistency: exactly the required steps for L give level L. */
  lemma LevelForThreshold(level: int)
    requires 1 <= level <= MaxLevel
    ensures LevelFor(StepsForLevel(level).n) == level
  {
    if level < MaxLevel {
      StepsStrictlyIncreasing(level, level + 1);
    }
    LevelForBracket(StepsForLevel(level).n, level);
  }

  /** One step short of the threshold for L gives level L - 1. */
  lemma LevelForBelowThreshold(level: int)
    requires 1 < level <= MaxLevel
    ensures LevelFor(StepsForLevel(level).n - 1) == level - 1
  {
    StepsStrictlyIncreasing(level - 1, level);
    LevelForBracket(StepsForLevel(level).n - 1, level - 1);
  }
}

=== FILE: persistence.dfy ===
/**
 * The durable store and the pet's persistence: `saveData`, `loadData`
 * with its day-rollover rule and per-field defaults, and the pet
 * operations that save after every mutation.
 */
module Persistence {
  import opened Wrappers
  import opened Json
  import opened Leveling
  import opened Pets

  /** The browser's key-value store, holding one parsed JSON document per key. */
  type Store = map<string, Json>

  /** The three keys the widget owns. */
  const PetKey: string := "sweatPetData"
  const ActivityKey: string := "sweatActivityData"
  const AchievementsKey: string := "sweatAchievements"

  /** A calendar date in local time: the (year, month, day) a Date reports. */
  datatype Date = Date(year: int, month: int, day: int)

  /** The record `saveData` writes; `now` is the ISO timestamp of the write. */
  function Encode(p: Pet, now: string): Json {
    JObj(map[
      "health" := JNum(p.stats.health),
      "happiness" := JNum(p.stats.happiness),
      "energy" := JNum(p.stats.energy),
      "strength" := JNum(p.stats.strength),
      "agility" := JNum(p.stats.agility),
      "level" := JNum(p.level as real),
      "stepsToday" := JNum(p.stepsToday as real),
      "totalSteps" := JNum(p.totalSteps as real),
      "lastSaved" := JStr(now)])
  }

  /** `saveData`: overwrite the pet key; every other key keeps its value. */
  function Save(store: Store, p: Pet, now: string): (r: Store)
    ensures r.Keys == store.Keys + {PetKey}
    ensures r[PetKey] == Encode(p, now)
    ensures forall k :: k in store && k != PetKey ==> r[k] == store[k]
  {
    store[PetKey := Encode(p, now)]
  }

  /** A later save replaces an earlier one. */
  lemma SaveOverwrites(store: Store, p: Pet, q: Pet, t1: string, t2: string)
    ensures Save(Save(store, p, t1), q, t2) == Save(store, q, t2)
  {
  }

  /** Each field of the written record, read back. */
  lemma EncodedFields(p: Pet, now: string)
    ensures Prop(Encode(p, now), "health") == Some(JNum(p.stats.health))
    ensures Prop(Encode(p, now), "happiness") == Some(JNum(p.stats.happiness))
    ensures Prop(Encode(p, now), "energy") == Some(JNum(p.stats.energy))
    ensures Prop(Encode(p, now), "strength") == Some(JNum(p.stats.strength))
    ensures Prop(Encode(p, now), "agility") == Some(JNum(p.stats.agility))
    ensures Prop(Encode(p, now), "level") == Some(JNum(p.level as real))
    ensures Prop(Encode(p, now), "stepsToday") == Some(JNum(p.stepsToday as real))
    ensures Prop(Encode(p, now), "totalSteps") == Some(JNum(p.totalSteps as real))
    ensures Prop(Encode(p, now), "lastSaved") == Some(JStr(now))
  {
  }

  /** Reading `doc[key] || fallback` as a stat. */
  function StatField(doc: Json, key: string, fallback: real): (r: Result<real>)
    ensures !TruthyField(Prop(doc, key)) ==> r == Ok(fallback)
    ensures TruthyField(Prop(doc, key)) && Prop(doc, key).value.JNum? ==> r == Ok(Prop(doc, key).value.n)
    ensures TruthyField(Prop(doc, key)) && !Prop(doc, key).value.JNum? ==> r == Err(OutOfModel)
  {
    match OrElse(Prop(doc, key), JNum(fallback))
    case JNum(n) => Ok(n)
    case _ => Err(OutOfModel)
  }

  /** Reading `doc[key] || fallback` as a whole-number counter. */
  function CountField(doc: Json, key: string, fallback: int): (r: Result<int>)
    ensures !TruthyField(Prop(doc, key)) ==> r == Ok(fallback)
    ensures TruthyField(Prop(doc, key)) && Prop(doc, key).value.JNum? ==>
      var n := Prop(doc, key).value.n;
      r == (if n == n.Floor as real then Ok(n.Floor) else Err(OutOfModel))
    ensures TruthyField(Prop(doc, key)) && !Prop(doc, key).value.JNum? ==> r == Err(OutOfModel)
  {
    match OrElse(Prop(doc, key), JNum(fallback as real))
    case JNum(n) => if n == n.Floor as real then Ok(n.Floor) else Err(OutOfModel)
    case _ => Err(OutOfModel)
  }

  /** The three calendar fields of `lastSaved` differ from today's, or `lastSaved` is not a valid date. */
  function IsNewDay(last: Option<Date>, today: Date): (b: bool)
    ensures b <==> last != Some(today)
  {
    last.None? || last.value.day != today.day || last.value.month != today.month || last.value.year != today.year
  }

  /** `doc[key] || fallback` evaluates to the number `v`. */
  predicate ReadsAs(doc: Json, key: string, fallback: real, v: real) {
    OrElse(Prop(doc, key), JNum(fallback)) == JNum(v)
  }

  /** `doc[key] || fallback` evaluates to a number, and to a whole one when `whole` is asked for. */
  predicate ReadsNumber(doc: Json, key: string, fallback: real, whole: bool) {
    var v := OrElse(Prop(doc, key), JNum(fallback));
    v.JNum? && (whole ==> v.n == v.n.Floor as real)
  }

  /**
   * The field-by-field restore of `loadData`: each field falls back to its
   * default when missing or falsy, and today's steps are zero on a new day.
   */
  function DecodePet(doc: Json, newDay: bool): (r: Result<Pet>)
    ensures r.Ok? <==>
      && ReadsNumber(doc, "health", 50.0, false) && ReadsNumber(doc, "happiness", 50.0, false)
      && ReadsNumber(doc, "energy", 50.0, false) && ReadsNumber(doc, "strength", 10.0, false)
      && ReadsNumber(doc, "agility", 10.0, false) && ReadsNumber(doc, "level", 1.0, true)
      && ReadsNumber(doc, "totalSteps", 0.0, true) && (newDay || ReadsNumber(doc, "stepsToday", 0.0, true))
    ensures r.Ok? ==>
      && ReadsAs(doc, "health", 50.0, r.value.stats.health)
      && ReadsAs(doc, "happiness", 50.0, r.value.stats.happiness)
      && ReadsAs(doc, "energy", 50.0, r.value.stats.energy)
      && ReadsAs(doc, "strength", 10.0, r.value.stats.strength)
      && ReadsAs(doc, "agility", 10.0, r.value.stats.agility)
      && ReadsAs(doc, "level", 1.0, r.value.level as real)
      && ReadsAs(doc, "totalSteps", 0.0, r.value.totalSteps as real)
    ensures r.Ok? && !newDay ==> ReadsAs(doc, "stepsToday", 0.0, r.value.stepsToday as real)
    ensures r.Ok? && newDay ==> r.value.stepsToday == 0
    ensures r.Ok? ==> r.value.stats.health != 0.0 && r.value.stats.happiness != 0.0
    ensures r.Ok? ==> r.value.stats.energy != 0.0 && r.value.stats.strength != 0.0
    ensures r.Ok? ==> r.value.stats.agility != 0.0 && r.value.level != 0
  {
    var health :- StatField(doc, "health", 50.0);
    var happiness :- StatField(doc, "happiness", 50.0);
    var energy :- StatField(doc, "energy", 50.0);
    var strength :- StatField(doc, "strength", 10.0);
    var agility :- StatField(doc, "agility", 10.0);
    var level :- CountField(doc, "level", 1);
    var totalSteps :- CountField(doc, "totalSteps", 0);
    var stepsToday :- if newDay then Ok(0) else CountField(doc, "stepsToday", 0);
    Ok(Pet(Stats(health, happiness, energy, strength, agility), level, stepsToday, totalSteps))
  }

  /** What `loadData` leaves behind: whether a record was found, the pet, and the store after the re-save. */
  datatype Loaded = Loaded(found: bool, pet: Pet, store: Store)

  /**
   * The local calendar date of a record's `lastSaved`. `calendar` stands
   * for `new Date(lastSaved)`; a record without the field gives
   * `new Date(undefined)`, which is an invalid date whatever the clock.
   */
  function LastSavedDate(doc: Json, calendar: Option<Json> -> Option<Date>): (d: Option<Date>)
    ensures Prop(doc, "lastSaved").None? ==> d.None?
    ensures Prop(doc, "lastSaved").Some? ==> d == calendar(Prop(doc, "lastSaved"))
  {
    if Prop(doc, "lastSaved").None? then None else calendar(Prop(doc, "lastSaved"))
  }

  /**
   * `loadData` on a freshly constructed pet. `calendar` stands for
   * `new Date(lastSaved)` read in local time (None for an invalid date),
   * `today` for the current local date and `now` for the re-save's timestamp.
   */
  function LoadData(store: Store, today: Date, calendar: Option<Json> -> Option<Date>, now: string): (r: Result<Loaded>)
    ensures PetKey !in store ==> r == Ok(Loaded(false, Initial, store))
    ensures PetKey in store && store[PetKey] == JNull ==> r == Err(NullAccess)
    ensures r.Ok? ==> (r.value.found <==> PetKey in store)
    ensures r.Ok? && r.value.found ==> r.value.store == Save(store, r.value.pet, now)
    ensures r.Ok? && r.value.found && LastSavedDate(store[PetKey], calendar) != Some(today) ==>
      r.value.pet.stepsToday == 0
    ensures r.Ok? && r.value.found && Prop(store[PetKey], "lastSaved").None? ==> r.value.pet.stepsToday == 0
    ensures PetKey in store && store[PetKey] != JNull ==>
      var decoded := DecodePet(store[PetKey], IsNewDay(LastSavedDate(store[PetKey], calendar), today));
      && (r.Ok? <==> decoded.Ok?)
      && (r.Ok? ==> r.value.found && r.value.pet == decoded.value)
  {
    if PetKey !in store then Ok(Loaded(false, Initial, store))
    else
      var doc := store[PetKey];
      if doc.JNull? then Err(NullAccess)
      else
        var newDay := IsNewDay(LastSavedDate(doc, calendar), today);
        var pet :- DecodePet(doc, newDay);
        Ok(Loaded(true, pet, Save(store, pet, now)))
  }

  /** What `doc[key] || fallback` reads: the fallback for a missing or falsy field, the stored number otherwise. */
  lemma ReadsAsMeaning(doc: Json, key: string, fallback: real, v: real)
    requires ReadsAs(doc, key, fallback, v)
    ensures !TruthyField(Prop(doc, key)) ==> v == fallback
    ensures TruthyField(Prop(doc, key)) ==> doc.JObj? && key in doc.fields && doc.fields[key] == JNum(v) && v != 0.0
  {
  }

  /**
   * A loaded record restores each field as `record[field] || default`:
   * a legacy record missing a field gets that field's default, and the
   * stored `stepsToday` is kept exactly when the record was saved today.
   */
  lemma LoadReadsRecord(store: Store, today: Date, calendar: Option<Json> -> Option<Date>, now: string)
    requires PetKey in store
    requires LoadData(store, today, calendar, now).Ok?
    ensures var doc := store[PetKey];
      var p := LoadData(store, today, calendar, now).value.pet;
      && ReadsAs(doc, "health", 50.0, p.stats.health)
      && ReadsAs(doc, "happiness", 50.0, p.stats.happiness)
      && ReadsAs(doc, "energy", 50.0, p.stats.energy)
      && ReadsAs(doc, "strength", 10.0, p.stats.strength)
      && ReadsAs(doc, "agility", 10.0, p.stats.agility)
      && ReadsAs(doc, "level", 1.0, p.level as real)
      && ReadsAs(doc, "totalSteps", 0.0, p.totalSteps as real)
      && (LastSavedDate(doc, calendar) == Some(today) ==> ReadsAs(doc, "stepsToday", 0.0, p.stepsToday as real))
      && (LastSavedDate(doc, calendar) != Some(today) ==> p.stepsToday == 0)
  {
  }

  /** A legacy record without `agility` loads with the default agility of 10. */
  lemma MissingFieldLoadsDefault(store: Store, today: Date, calendar: Option<Json> -> Option<Date>, now: string)
    requires PetKey in store && store[PetKey].JObj? && "agility" !in store[PetKey].fields
    requires LoadData(store, today, calendar, now).Ok?
    ensures LoadData(store, today, calendar, now).value.pet.stats.agility == 10.0
  {
    LoadReadsRecord(store, today, calendar, now);
    ReadsAsMeaning(store[PetKey], "agility", 10.0, LoadData(store, today, calendar, now).value.pet.stats.agility);
  }

  /** A pet that survives the `||` defaults: no stat and no level is zero. */
  predicate Reloadable(p: Pet) {
    && p.stats.health != 0.0 && p.stats.happiness != 0.0 && p.stats.energy != 0.0
    && p.stats.strength != 0.0 && p.stats.agility != 0.0 && p.level != 0
  }

  /** Decoding what `saveData` wrote gives the pet back, today's steps zeroed on a new day. */
  lemma DecodeEncode(p: Pet, now: string, newDay: bool)
    requires Reloadable(p)
    ensures DecodePet(Encode(p, now), newDay) == Ok(if newDay then p.(stepsToday := 0) else p)
  {
    EncodedFields(p, now);
  }

  /** Save then load on the same calendar day restores the pet exactly. */
  lemma SaveLoadSameDay(store: Store, p: Pet, saved: string, today: Date,
                        calendar: Option<Json> -> Option<Date>, now: string)
    requires Reloadable(p)
    requires calendar(Some(JStr(saved))) == Some(today)
    ensures LoadData(Save(store, p, saved), today, calendar, now) == Ok(Loaded(true, p, Save(store, p, now)))
  {
    EncodedFields(p, saved);
    DecodeEncode(p, saved, false);
    SaveOverwrites(store, p, p, saved, now);
  }

  /** Save then load on a later day restores the pet with today's steps at zero. */
  lemma SaveLoadNewDay(store: Store, p: Pet, saved: string, today: Date,
                       calendar: Option<Json> -> Option<Date>, now: string)
    requires Reloadable(p)
    requires calendar(Some(JStr(saved))) != Some(today)
    ensures LoadData(Save(store, p, saved), today, calendar, now) ==
      Ok(Loaded(true, p.(stepsToday := 0), Save(store, p.(stepsToday := 0), now)))
  {
    EncodedFields(p, saved);
    DecodeEncode(p, saved, true);
    SaveOverwrites(store, p, p.(stepsToday := 0), saved, now);
  }

  /**
   * Day rollover happens at most once per day: loading again on the same
   * day, after the load's own re-save, gives the same pet.
   */
  lemma RolloverIdempotent(store: Store, today: Date, calendar: Option<Json> -> Option<Date>,
                           now: string, later: string)
    requires LoadData(store, today, calendar, now).Ok?
    requires LoadData(store, today, calendar, now).value.found
    requires calendar(Some(JStr(now))) == Some(today)
    ensures var first := LoadData(store, today, calendar, now).value;
      LoadData(first.store, today, calendar, later) == Ok(Loaded(true, first.pet, Save(first.store, first.pet, later)))
  {
    var first := LoadData(store, today, calendar, now).value;
    assert Save(first.store, first.pet, later) == Save(store, first.pet, later);
    SaveLoadSameDay(store, first.pet, now, today, calendar, later);
  }

  /** A legacy record with none of the fields and no valid date loads as the constructor's pet. */
  lemma EmptyRecordLoadsDefaults(store: Store, today: Date, calendar: Option<Json> -> Option<Date>, now: string)
    requires PetKey in store && store[PetKey] == JObj(map[])
    ensures LoadData(store, today, calendar, now) == Ok(Loaded(true, Initial, Save(store, Initial, now)))
  {
  }

  /** A stat saved as exactly 0 is falsy and comes back as its default. */
  lemma ZeroHealthReloadsAsDefault(p: Pet, saved: string)
    requires p.stats.health == 0.0
    requires DecodePet(Encode(p, saved), false).Ok?
    ensures DecodePet(Encode(p, saved), false).value.stats.health == 50.0
  {
    EncodedFields(p, saved);
  }

  /** The in-memory pet together with the store it writes to. */
  datatype Session = Session(pet: Pet, store: Store)

  /** The stored record decodes to the in-memory pet. */
  predicate InSync(s: Session) {
    PetKey in s.store && DecodePet(s.store[PetKey], false) == Ok(s.pet)
  }

  /**
   * `increaseX(amount)` followed by its `saveData`: every setter is a save
   * point, so the stored record reloads as the pet in memory, and a valid,
   * reloadable pet stays reloadable under a non-negative increase.
   */
  function IncreaseStatSaved(s: Session, stat: Stat, amount: real, now: string): (r: Session)
    ensures r.pet == IncreaseStat(s.pet, stat, amount)
    ensures r.store == Save(s.store, r.pet, now)
    ensures Reloadable(r.pet) ==> InSync(r)
    ensures Valid(s.pet) && Reloadable(s.pet) && amount >= 0.0 ==> Reloadable(r.pet) && InSync(r)
  {
    var p := IncreaseStat(s.pet, stat, amount);
    var r := Session(p, Save(s.store, p, now));
    if Reloadable(p) then DecodeEncode(p, now, false); r else r
  }

  /**
   * `addSteps` with its saves: five saving stat increases, the level
   * recompute and a final save. A non-positive count neither changes
   * nor saves anything; otherwise the store ends holding exactly the
   * resulting pet, as if written once.
   */
  function AddStepsSaved(s: Session, steps: int, now: string): (r: Session)
    ensures steps <= 0 ==> r == s
    ensures steps > 0 ==> r.pet == AddSteps(s.pet, steps)
    ensures steps > 0 ==> r.store == Save(s.store, r.pet, now)
  {
    if steps <= 0 then s
    else
      var counted := s.(pet := s.pet.(stepsToday := s.pet.stepsToday + steps,
                                      totalSteps := s.pet.totalSteps + steps));
      var fed := IncreaseAllSaved(counted, steps, now);
      var leveled := CheckLevelUp(fed.pet);
      SaveOverwrites(counted.store, fed.pet, leveled, now, now);
      Session(leveled, Save(fed.store, leveled, now))
  }

  /**
   * The five saving `increaseX` calls of an intake, in the source's order:
   * they leave the fed pet and a store as if it had been saved once.
   */
  function IncreaseAllSaved(c: Session, steps: int, now: string): (r: Session)
    ensures r.pet == c.pet.(stats := Feed(c.pet.stats, steps))
    ensures r.store == Save(c.store, r.pet, now)
  {
    var s1 := IncreaseStatSaved(c, Health, Delta(Health, steps), now);
    var s2 := IncreaseStatSaved(s1, Happiness, Delta(Happiness, steps), now);
    var s3 := IncreaseStatSaved(s2, Energy, Delta(Energy, steps), now);
    var s4 := IncreaseStatSaved(s3, Strength, Delta(Strength, steps), now);
    var s5 := IncreaseStatSaved(s4, Agility, Delta(Agility, steps), now);
    FeedIsFiveIncreases(c.pet, steps);
    SaveOverwrites(c.store, s1.pet, s2.pet, now, now);
    SaveOverwrites(c.store, s2.pet, s3.pet, now, now);
    SaveOverwrites(c.store, s3.pet, s4.pet, now, now);
    SaveOverwrites(c.store, s4.pet, s5.pet, now, now);
    s5
  }

  /** A positive intake never brings a stat or the level to zero. */
  lemma AddStepsKeepsReloadable(p: Pet, steps: int)
    requires steps > 0
    requires Valid(p)
    ensures Reloadable(AddSteps(p, steps))
  {
    var r := AddSteps(p, steps);
    forall s
      ensures r.stats.Get(s) > 0.0
    {
      assert Delta(s, steps) > 0.0;
    }
    assert r.stats.Get(Health) > 0.0 && r.stats.Get(Happiness) > 0.0 && r.stats.Get(Energy) > 0.0;
    assert r.stats.Get(Strength) > 0.0 && r.stats.Get(Agility) > 0.0;
    AddStepsKeepsValid(p, steps);
  }

  /** After a saving intake the stored record matches the in-memory pet. */
  lemma AddStepsSavedInSync(s: Session, steps: int, now: string)
    requires steps > 0
    requires Valid(s.pet)
    ensures InSync(AddStepsSaved(s, steps, now))
  {
    var r := AddStepsSaved(s, steps, now);
    AddStepsKeepsReloadable(s.pet, steps);
    DecodeEncode(r.pet, now, false);
  }

  /** `resetStepsToday` with its save: the stored record reloads as the reset pet. */
  function ResetStepsTodaySaved(s: Session, now: string): (r: Session)
    ensures r.pet == ResetStepsToday(s.pet)
    ensures r.store == Save(s.store, r.pet, now)
    ensures Reloadable(s.pet) ==> InSync(r)
  {
    var p := ResetStepsToday(s.pet);
    var r := Session(p, Save(s.store, p, now));
    if Reloadable(p) then DecodeEncode(p, now, false); r else r
  }
}

=== FILE: pets.dfy ===
/**
 * The pet's state and its pure progression rules: bounded stat increases,
 * step intake, level recompute, daily reset and evolution stage.
 * Saving to the durable store is layered on top in module Persistence.
 */
module Pets {
  import opened Leveling

  /** The five bounded stats. */
  datatype Stat = Health | Happiness | Energy | Strength | Agility

  /** The five stats, each on a 0..100 scale in normal use. */
  datatype Stats = Stats(health: real, happiness: real, energy: real, strength: real, agility: real)
  {
    /** The value of one stat. */
    function Get(s: Stat): real {
      match s
      case Health => health
      case Happiness => happiness
      case Energy => energy
      case Strength => strength
      case Agility => agility
    }

    /** The same stats with one replaced. */
    function With(s: Stat, v: real): (r: Stats)
      ensures r.Get(s) == v
      ensures forall o :: o != s ==> r.Get(o) == Get(o)
    {
      match s
      case Health => this.(health := v)
      case Happiness => this.(happiness := v)
      case Energy => this.(energy := v)
      case Strength => this.(strength := v)
      case Agility => this.(agility := v)
    }
  }

  /** The pet record: stats, level and the two step counters. */
  datatype Pet = Pet(stats: Stats, level: int, stepsToday: int, totalSteps: int)

  /** The constructor's starting values. */
  const Initial: Pet := Pet(Stats(50.0, 50.0, 50.0, 10.0, 10.0), 1, 0, 0)

  /** The invariants the record keeps in normal use. */
  predicate Valid(p: Pet) {
    && (forall s :: 0.0 <= p.stats.Get(s) <= StatCap)
    && 1 <= p.level <= MaxLevel
    && p.stepsToday >= 0
    && p.totalSteps >= 0
  }

  /** The level agrees with the step total. */
  predicate Consistent(p: Pet) {
    p.level == LevelFor(p.totalSteps)
  }

  function Min(a: real, b: real): real {
    if a <= b then a else b
  }

  /** The ceiling every stat is clamped to. */
  const StatCap: real := 100.0

  /**
   * `increaseHealth` and its four siblings: the stat becomes
   * min(100, stat + amount) and nothing else changes.
   */
  function IncreaseStat(p: Pet, s: Stat, amount: real): (r: Pet)
    ensures r.stats.Get(s) <= StatCap
    ensures p.stats.Get(s) + amount <= StatCap ==> r.stats.Get(s) == p.stats.Get(s) + amount
    ensures p.stats.Get(s) + amount > StatCap ==> r.stats.Get(s) == StatCap
    ensures amount >= 0.0 && p.stats.Get(s) <= StatCap ==> p.stats.Get(s) <= r.stats.Get(s)
    ensures forall o :: o != s ==> r.stats.Get(o) == p.stats.Get(o)
    ensures r.level == p.level && r.stepsToday == p.stepsToday && r.totalSteps == p.totalSteps
  {
    p.(stats := p.stats.With(s, Min(StatCap, p.stats.Get(s) + amount)))
  }

  /** A stat within 0..100 stays there under any non-negative increase. */
  lemma IncreaseStatKeepsValid(p: Pet, s: Stat, amount: real)
    requires Valid(p)
    requires amount >= 0.0
    ensures Valid(IncreaseStat(p, s, amount))
  {
  }

  /** Per-intake cap of each stat's delta. */
  function Cap(s: Stat): real {
    match s
    case Health => 20.0
    case Happiness => 15.0
    case Energy => 12.0
    case Strength => 10.0
    case Agility => 10.0
  }

  /**
   * The diminishing-return delta of one stat for an intake of `steps`:
   * the steps times the stat's rate, capped.
   */
  function Delta(s: Stat, steps: int): (d: real)
    ensures d <= Cap(s)
    ensures steps > 0 ==> 0.0 < d
  {
    var x := steps as real;
    match s
    case Health => Min(20.0, x * 0.01)
    case Happiness => Min(15.0, x * 0.005)
    case Energy => Min(12.0, x * 0.003)
    case Strength => Min(10.0, x * 0.001)
    case Agility => Min(10.0, x * 0.001)
  }

  /**
   * `checkLevelUp`: take the scanned level when it is higher than the
   * current one. The level never decreases and nothing else changes.
   */
  function CheckLevelUp(p: Pet): (r: Pet)
    ensures r.level >= p.level
    ensures r.level >= LevelFor(p.totalSteps)
    ensures r.level == p.level || r.level == LevelFor(p.totalSteps)
    ensures r == p.(level := r.level)
  {
    var newLevel := LevelFor(p.totalSteps);
    if newLevel > p.level then p.(level := newLevel) else p
  }

  /** A second recompute finds nothing more to do. */
  lemma CheckLevelUpIdempotent(p: Pet)
    ensures CheckLevelUp(CheckLevelUp(p)) == CheckLevelUp(p)
  {
  }

  /** Every stat gains its capped delta for `steps`, clamped at 100. */
  function Feed(st: Stats, steps: int): (r: Stats)
    ensures forall s :: r.Get(s) == Min(StatCap, st.Get(s) + Delta(s, steps))
  {
    Stats(
      Min(StatCap, st.health + Delta(Health, steps)),
      Min(StatCap, st.happiness + Delta(Happiness, steps)),
      Min(StatCap, st.energy + Delta(Energy, steps)),
      Min(StatCap, st.strength + Delta(Strength, steps)),
      Min(StatCap, st.agility + Delta(Agility, steps)))
  }

  /** The source applies the deltas as five successive `increaseX` calls; the result is the same. */
  lemma FeedIsFiveIncreases(p: Pet, steps: int)
    ensures p.(stats := Feed(p.stats, steps)) ==
      var p1 := IncreaseStat(p, Health, Delta(Health, steps));
      var p2 := IncreaseStat(p1, Happiness, Delta(Happiness, steps));
      var p3 := IncreaseStat(p2, Energy, Delta(Energy, steps));
      var p4 := IncreaseStat(p3, Strength, Delta(Strength, steps));
      IncreaseStat(p4, Agility, Delta(Agility, steps))
  {
  }

  /**
   * `addSteps`: a non-positive count changes nothing; otherwise both
   * counters grow by exactly `steps`, each stat gains its capped delta
   * (clamped at 100), and the level is recomputed from the new total.
   */
  function AddSteps(p: Pet, steps: int): (r: Pet)
    ensures steps <= 0 ==> r == p
    ensures steps > 0 ==> r.stepsToday == p.stepsToday + steps
    ensures steps > 0 ==> r.totalSteps == p.totalSteps + steps
    ensures steps > 0 ==> forall s :: r.stats.Get(s) == Min(StatCap, p.stats.Get(s) + Delta(s, steps))
    ensures steps > 0 ==> r.level >= p.level && r.level >= LevelFor(r.totalSteps)
    ensures steps > 0 ==> r.level == p.level || r.level == LevelFor(r.totalSteps)
  {
    if steps <= 0 then p
    else
      var counted := p.(stepsToday := p.stepsToday + steps, totalSteps := p.totalSteps + steps);
      CheckLevelUp(counted.(stats := Feed(p.stats, steps)))
  }

  /** Intake keeps every stat within 0..100 and counters and level in range. */
  lemma AddStepsKeepsValid(p: Pet, steps: int)
    requires Valid(p)
    ensures Valid(AddSteps(p, steps))
  {
    var r := AddSteps(p, steps);
    if steps > 0 {
      forall s
        ensures 0.0 <= r.stats.Get(s) <= StatCap
      {
        assert Delta(s, steps) > 0.0;
      }
    }
  }

  /** Intake from a consistent record leaves level equal to the level of the new total. */
  lemma AddStepsKeepsConsistent(p: Pet, steps: int)
    requires Consistent(p)
    ensures Consistent(AddSteps(p, steps))
  {
    var r := AddSteps(p, steps);
    if steps > 0 {
      LevelForMonotone(p.totalSteps, r.totalSteps);
    }
  }

  /** Along any sequence of intakes the level never decreases and the total never shrinks. */
  lemma {:induction false} IntakesMonotone(p: Pet, batches: seq<int>)
    ensures AddAll(p, batches).level >= p.level
    ensures AddAll(p, batches).totalSteps >= p.totalSteps
    decreases |batches|
  {
    if |batches| > 0 {
      IntakesMonotone(AddSteps(p, batches[0]), batches[1..]);
    }
  }

  /** A sequence of intakes applied in order. */
  function AddAll(p: Pet, batches: seq<int>): Pet
    decreases |batches|
  {
    if |batches| == 0 then p else AddAll(AddSteps(p, batches[0]), batches[1..])
  }

  /** The first intake scenario: 1000 steps on a fresh pet. */
  lemma FreshPetThousandSteps(p: Pet)
    requires p == Initial
    ensures AddSteps(p, 1000) == Pet(Stats(60.0, 55.0, 53.0, 11.0, 11.0), 1, 1000, 1000)
  {
    ThresholdOfLevel2();
    LevelForBracket(1000, 1);
  }

  /** The second scenario: from 900 to 3000 total steps the pet jumps to level 2. */
  lemma LevelUpAt3000(p: Pet)
    requires p == Initial.(totalSteps := 900)
    ensures AddSteps(p, 2100).level == 2
  {
    ThresholdOfLevel2();
    ThresholdOfLevel3();
    LevelForBracket(3000, 2);
  }

  /** `resetStepsToday`: zero today's counter, leave everything else. */
  function ResetStepsToday(p: Pet): (r: Pet)
    ensures r.stepsToday == 0
    ensures r.stats == p.stats && r.level == p.level && r.totalSteps == p.totalSteps
  {
    p.(stepsToday := 0)
  }

  /** The sprite stage for a level: bands of 20 levels, stage 1 through 5. */
  function EvolutionStage(level: int): (stage: int)
    ensures 1 <= stage <= 5
    ensures 1 <= level <= MaxLevel ==> 20 * (stage - 1) < level <= 20 * stage
    ensures level <= 0 ==> stage == 1
    ensures level > MaxLevel ==> stage == 5
  {
    if level <= 20 then 1
    else if level <= 40 then 2
    else if level <= 60 then 3
    else if level <= 80 then 4
    else 5
  }

  /** A higher level never shows an earlier stage. */
  lemma EvolutionStageMonotone(a: int, b: int)
    requires a <= b
    ensures EvolutionStage(a) <= EvolutionStage(b)
  {
  }
}

=== FILE: wrappers.dfy ===
/** Failure-carrying return types shared by the whole model. */
module Wrappers {

  /** An optional value: `None` stands for JavaScript's `undefined`/`null` result. */
  datatype Option<+T> = None | Some(value: T)

  /** Why an operation of the widget did not complete normally. */
  datatype Fault =
    | Malformed      // JSON.parse rejected the text
    | NullAccess     // a property was read from a JSON `null` (a TypeError in JavaScript)
    | OutOfModel     // a stored shape whose JavaScript meaning the numeric model does not carry

  /** Either a value or the fault that stopped the operation. */
  datatype Result<+T> = Ok(value: T) | Err(fault: Fault) {
    predicate IsFailure() {
      Err?
    }

    function PropagateFailure<U>(): Result<U>
      requires Err?
    {
      Err(fault)
    }

    function Extract(): T
      requires Ok?
    {
      value
    }
  }
}
